=== FILE: README.md ===
# Browser device backends of qemu-wasm, modelled in Dafny

This project models the bookkeeping at the core of three device backends
that let QEMU run in a web browser through WebAssembly:

- **Audio** (`audio/wasmaudio.c`). A single-producer single-consumer ring of
  16384 float samples sits between QEMU and the browser's audio callbacks.
  Positions are masked 32-bit counters, and one slot is always kept empty.
  Frame and sample accounting wrappers sit on top of the ring (`AudioRing`,
  `WasmAudio`).
- **Virtio-GPU hooks** (`ui/wasm-virtio-gpu.c`). The state has:
  - a 4096-slot resource table indexed by guest ID;
  - 16 scanouts;
  - a 256-slot 3D-context table;
  - a 1024-slot fence array in which ID 0 marks a free slot;
  - running statistics.

  The hooks also choose a rendering backend from what the browser offers.
  They are modelled in `GpuState`, `GpuResources`, `GpuContexts`,
  `GpuFences` and `GpuLifecycle`.
- **Framebuffer export** (`ui/wasm-display.c`). QEMU hands over surfaces.
  The backend copies changed rectangles into an RGBA buffer for a canvas,
  converting BGRX pixels. A dirty flag and a frame counter tell JavaScript
  when to repaint. The buffer only grows, up to 3840x2160. Mouse buttons
  and the wheel become QEMU input events. These are modelled in `Pixels`,
  `Display` and `DisplayInput`.

Every operation is a pure function from the old state to the new one, plus
the value the C function returns. Tables are fixed-length sequences of
`Option` slots. The browser's answers are parameters: detected backend,
feature mask, whether Web Audio started, and whether a console exists.
Pointers are abstract (`Ptr`), and sample values are a type parameter `T`.

Integer widths follow the 32-bit WebAssembly target:
- `size_t` is 32 bits, so `samples * channels` and `width * height * 4`
  wrap modulo 2^32;
- the 32-bit table counters wrap on increment and decrement (`Inc32`,
  `Dec32`);
- `texture_memory` wraps modulo 2^64 (`Add64`, `Sub64`).

Counters that only ever grow by small amounts (frames, bytes, samples) are
unbounded.

`Gpu.Consistent` states the occupancy invariant. It has two parts:
- `Gpu.TablesConsistent`: `resource_count` is the number of occupied
  resource slots, `context_count` is the number of occupied context slots,
  and every record sits in the slot named by its ID;
- `Gpu.FencesConsistent`: `fence_count` and `pending_fences` are the
  number of fence slots with a non-zero ID.

The source can break the fence part, through a statistics reset or a fence
with ID 0, without touching the tables. Init and shutdown accept such
states.

## Model

| member | source | states |
|---|---|---|
| AudioRing.AvailableRead | audio/wasmaudio.c:111-116 | unread samples are the distance from read to write position modulo 16384, and zero exactly when the positions are equal |
| AudioRing.AvailableWrite | audio/wasmaudio.c:104-109 | free space plus unread samples is always 16383: one slot stays empty |
| AudioRing.NeverEmptyAndFull | audio/wasmaudio.c:104-116 | the ring never reports empty and full at once, and neither count reaches 16384 |
| AudioRing.Fresh | audio/wasmaudio.c:504-509 | a newly allocated ring is valid and empty, with 16383 free slots |
| AudioRing.CopyInSlots | audio/wasmaudio.c:125-135 | the two-chunk copy puts data element d at slot write_pos+d modulo 16384 and leaves every slot at or past n ahead untouched |
| AudioRing.Write | audio/wasmaudio.c:118-137 | accepts exactly min(count, free space), advances only write_pos by that amount modulo 16384, stores the data at the slots it advanced over, and changes no other slot |
| AudioRing.Read | audio/wasmaudio.c:139-158 | returns min(count, unread) samples taken in order from read_pos with wrap-around, advances only read_pos, and leaves the buffer and write_pos as they were |
| AudioRing.WriteAppends | audio/wasmaudio.c:118-137 | the queued contents after a write are the old contents followed by the accepted prefix of the data |
| AudioRing.ReadConsumes | audio/wasmaudio.c:139-158 | a read returns a prefix of the queued contents and leaves the rest queued |
| AudioRing.WriteThenReadIsFifo | audio/wasmaudio.c:118-158 | from any state, a write then a read of everything returns the old contents followed by the accepted data, across the wrap point |
| AudioRing.RoundTrip | audio/wasmaudio.c:118-158 | on an empty ring, writing n samples that fit and reading n returns exactly those samples and leaves the ring empty |
| AudioRing.OverfullWriteFillsRing | audio/wasmaudio.c:118-137 | a write larger than the free space is truncated and leaves the ring full |
| WasmAudio.Init | audio/wasmaudio.c:486-543 | an existing state is returned with 0; otherwise a failed Web Audio start gives NULL and -1; otherwise the state has the given or default config (48000 Hz, 2 channels, 1024 samples, script processor), two empty rings, zero counters and state SUSPENDED |
| WasmAudio.FloatCount | audio/wasmaudio.c:621-622 | the float count handed to the ring is samples*channels when that fits in 32 bits, and always below 2^32 |
| WasmAudio.WholeFrames | audio/wasmaudio.c:624-625 | the frame count is the floor of floats divided by channels |
| WasmAudio.Write | audio/wasmaudio.c:614-626 | with no state or null data returns 0 and changes nothing; otherwise appends min(samples*channels, free) floats to the output ring, returns the whole frames written (never more than requested) and adds them to samples_played, changing nothing else |
| WasmAudio.GetFree | audio/wasmaudio.c:631-639 | free whole frames: the free float count divided by the channel count; 0 with no state |
| WasmAudio.WriteOfFreeFramesIsAccepted | audio/wasmaudio.c:614-639 | writing at most get_free frames is accepted in full |
| WasmAudio.Read | audio/wasmaudio.c:696-704 | with no state or null buffer reads nothing; otherwise returns min(samples, unread) floats from the front of the input ring and removes them, changing nothing else |
| WasmAudio.GetAvailable | audio/wasmaudio.c:709-716 | the number of queued input floats, 0 with no state |
| WasmAudio.ReadAvailableDrains | audio/wasmaudio.c:696-716 | reading get_available floats returns the whole input queue and empties it |
| WasmAudio.PushInput | audio/wasmaudio.c:472-481 | the capture callback appends as much of the temporary buffer as fits to the input ring and adds the full requested count to samples_captured |
| WasmAudio.FillBuffer | audio/wasmaudio.c:452-467 | counts one underrun exactly when the output ring holds fewer floats than samples*channels (always when that is negative, as size_t) and consumes nothing |
| WasmAudio.HandleInterruption | audio/wasmaudio.c:742-751 | sets interrupted to the argument and the state to INTERRUPTED when it began, SUSPENDED when it ended; nothing else changes; no-op without state |
| WasmAudio.IsInterrupted | audio/wasmaudio.c:731-737 | false without state; otherwise exactly the interruption flag |
| WasmAudio.InterruptionIsReported | audio/wasmaudio.c:731-751 | the query reports exactly the flag the last interruption set |
| GpuState.Blank | ui/wasm-virtio-gpu.c:240 | the zero-allocated state satisfies the occupancy invariant and holds no live resource |
| GpuLifecycle.SelectBackend | ui/wasm-virtio-gpu.c:247-258 | the backend is the preferred, the detected or WebGPU compatibility mode; a non-NONE request no higher than the detected one is honoured; anything above the detected backend is compatibility mode reached through a WebGPU request |
| GpuLifecycle.InitCaps | ui/wasm-virtio-gpu.c:260-283 | fixed limits for every backend (256 layers, 256 MiB buffers, 64 KiB uniform buffers); virgl, blob and compute limits exactly for WebGPU and its compatibility mode |
| GpuLifecycle.Init | ui/wasm-virtio-gpu.c:234-302 | an existing state, consistent or not, is returned unchanged; a new one has exactly the capabilities InitCaps gives for the selected backend, zeroed statistics, no live resources, contexts or fences, and is consistent |
| GpuLifecycle.InitIsIdempotent | ui/wasm-virtio-gpu.c:236-238 | a second initialisation ignores the browser's new answers and changes nothing |
| GpuLifecycle.Shutdown | ui/wasm-virtio-gpu.c:307-331 | needs only the table part of the invariant; destroys exactly the live resources, then exactly the live contexts, each in ascending ID order; leaves both tables empty with zero counts, changes nothing else (fences and statistics included), and keeps the full invariant when it held |
| GpuResources.ReplaceLive | ui/wasm-virtio-gpu.c:351-443 | replacing a live resource record by one with the same ID keeps the table part and the whole of the occupancy invariant |
| GpuResources.Create | ui/wasm-virtio-gpu.c:351-374 | fails with -1 and no change exactly when the ID is out of range or taken; otherwise fills that slot only, adds one (modulo 2^32) to resource_count and one to resources_allocated in every state, and keeps the table part and the whole of the invariant |
| GpuResources.Destroy | ui/wasm-virtio-gpu.c:379-398 | a non-live ID is a no-op; otherwise empties that slot only, subtracts one from resource_count, and keeps the invariant |
| GpuResources.CreateThenDestroyRestores | ui/wasm-virtio-gpu.c:351-398 | create then destroy of a free ID gives back the original state except one more resources_allocated |
| GpuResources.AttachBacking | ui/wasm-virtio-gpu.c:403-422 | fails with -1 and no change on a non-live ID; otherwise sets host_ptr, size and is_dirty of that resource and adds size to texture_memory modulo 2^64; keeps the table part and the whole of the invariant |
| GpuResources.DetachBacking | ui/wasm-virtio-gpu.c:427-443 | no-op on a non-live ID; otherwise subtracts size from texture_memory only when it is positive and clears host_ptr and size; keeps the table part and the whole of the invariant |
| GpuResources.RectBytes | ui/wasm-virtio-gpu.c:464 | the byte count width*height*4 as a 32-bit size_t |
| GpuResources.TransferToHost | ui/wasm-virtio-gpu.c:448-473 | fails with -1 and no change unless the resource is live with a host pointer; otherwise clears is_dirty, adds the rectangle's byte count to bytes_uploaded and hands out the upload it asks of the browser, with no bound check on the offset; keeps the table part and the whole of the invariant |
| GpuResources.TransferFromHost | ui/wasm-virtio-gpu.c:478-495 | same failure condition; on success only bytes_downloaded grows |
| GpuResources.BoundScanouts | ui/wasm-virtio-gpu.c:513-522 | the list holds exactly the enabled scanouts showing the resource, in ascending order |
| GpuResources.Flush | ui/wasm-virtio-gpu.c:500-526 | fails with -1 and no change on a non-live ID; otherwise notifies exactly the enabled scanouts showing the resource and adds their number to frames_rendered, changing no table and keeping both parts of the invariant |
| GpuResources.SetScanout | ui/wasm-virtio-gpu.c:531-542 | fails with -1 and no change for a scanout ID of 16 or more; otherwise stores the scanout at that index only; keeps the table part and the whole of the invariant |
| GpuResources.FlushReachesBoundScanout | ui/wasm-virtio-gpu.c:500-542 | after a resource is put on an enabled scanout, flushing it notifies that scanout |
| GpuResources.CursorUpdate | ui/wasm-virtio-gpu.c:547-566 | -1 for an out-of-range ID; otherwise 0, with a cursor image handed to the browser exactly when the slot is live with a host pointer |
| GpuResources.BlobCreate | ui/wasm-virtio-gpu.c:783-811 | fails with -1 and no change when the ID is out of range or taken; otherwise stores a blob resource whose host pointer is the allocation, or NULL for size 0, returns that pointer, bumps resource_count, counts the allocation without adding to texture_memory, changes nothing else, and keeps the table part and the whole of the invariant |
| GpuResources.BlobMap | ui/wasm-virtio-gpu.c:816-828 | a pointer only for a live blob resource, and then its host pointer |
| GpuResources.BlobMapAfterCreate | ui/wasm-virtio-gpu.c:783-828 | mapping a just-created blob returns the memory creation mapped |
| GpuResources.BlobDetachWrapsTextureMemory | ui/wasm-virtio-gpu.c:427-443 | detaching a blob's backing subtracts a size that was never added, so texture_memory wraps around to 2^64 minus the size |
| GpuContexts.ContextCreate | ui/wasm-virtio-gpu.c:589-617 | fails with -1 and no change when the ID is out of range or taken; otherwise fills that slot only, adds one (modulo 2^32) to context_count in every state, and keeps the table part and the whole of the invariant |
| GpuContexts.ContextDestroy | ui/wasm-virtio-gpu.c:622-644 | no-op for a missing context; otherwise empties that slot, subtracts one from context_count and leaves fences alone |
| GpuContexts.ContextCreateThenDestroyRestores | ui/wasm-virtio-gpu.c:589-644 | create then destroy of a free context ID gives back the original state |
| GpuContexts.AttachResource | ui/wasm-virtio-gpu.c:649-665 | 0 exactly when both IDs are in range; neither table is consulted |
| GpuContexts.DetachResource | ui/wasm-virtio-gpu.c:670-684 | reaches the browser under the same range condition as attach |
| GpuContexts.Submit | ui/wasm-virtio-gpu.c:689-707 | fails with -1 and no change for an out-of-range context or a null buffer; otherwise hands the command bytes over and adds one to commands_submitted |
| GpuContexts.SubmitIgnoresContextTable | ui/wasm-virtio-gpu.c:689-707 | a submission to a destroyed context is still accepted |
| GpuFences.FirstSlot | ui/wasm-virtio-gpu.c:718-719 | the search returns the lowest index holding the ID, or none exactly when no slot holds it |
| GpuFences.CreateFence | ui/wasm-virtio-gpu.c:712-731 | fails with -1 and no change exactly when no slot is free; otherwise writes an unsignalled fence into the lowest free slot, changes no other slot, and bumps fence_count and pending_fences |
| GpuFences.FenceIsSignaled | ui/wasm-virtio-gpu.c:736-756 | an unknown ID reports true; the first matching unsignalled slot reports false with no change; the first matching signalled slot is reaped (ID 0, both counters down) and reports true |
| GpuFences.SignalFence | ui/wasm-virtio-gpu.c:762-774 | marks only the first slot holding the ID as signalled; unknown IDs change nothing; the invariant is kept |
| GpuFences.FenceLifecycle | ui/wasm-virtio-gpu.c:712-774 | a new fence polls false until signalled, the next poll reaps it and reports true with both counters back where they were, and later polls report true |
| GpuFences.CreateFenceCapacity | ui/wasm-virtio-gpu.c:712-731 | creation succeeds exactly when fewer than 1024 fences are pending |
| GpuFences.ZeroFenceIsMiscounted | ui/wasm-virtio-gpu.c:712-731 | creating a fence with ID 0 leaves its slot free while the counters grow, breaking the occupancy invariant |
| GpuFences.ZeroPollReapsFreeSlot | ui/wasm-virtio-gpu.c:736-756 | polling ID 0 when the first free slot was reaped earlier reports true and lowers both counters without changing any slot |
| GpuFences.ResetStatsAsWritten | ui/wasm-virtio-gpu.c:856-870 | as written: zeroes frames_rendered, the byte counts, commands_submitted and pending_fences, keeps texture_memory and resources_allocated, and changes nothing outside the statistics |
| GpuFences.ResetStatsAsWrittenWrapsPending | ui/wasm-virtio-gpu.c:736-756 | after that reset, reaping a pending fence takes pending_fences from 0 to 2^32-1 and breaks the invariant |
| GpuFences.ResetStats | ui/wasm-virtio-gpu.c:856-870 | corrected: zeroes the same statistics but keeps pending_fences, and keeps the invariant |
| GpuFences.ResetStatsDiffersOnlyInPending | ui/wasm-virtio-gpu.c:856-870 | the corrected and as-written resets differ only in pending_fences |
| GpuFences.ResetStatsThenReapStaysConsistent | ui/wasm-virtio-gpu.c:709-870 | after the corrected reset, the state after creating, then signalling, then reaping a fence is consistent at every step; a new fence that finds a free slot is reported signalled and pending_fences ends where it was before the reset |
| Display.Init | ui/wasm-display.c:385-436 | with a graphic console: a zeroed 1024x768 RGBA buffer, stride 4096, 32 bpp, not dirty, frame 0, no surface; without one the global stays NULL |
| Display.Ack | ui/wasm-display.c:111-116 | clears the dirty flag and changes nothing else; no-op without state |
| Display.IsDirty | ui/wasm-display.c:121-127 | returns the dirty flag, false without state |
| Display.FrameCount | ui/wasm-display.c:132-138 | returns the frame counter, 0 without state |
| Display.AckClears | ui/wasm-display.c:111-138 | after an acknowledgement the display is not dirty and the frame count is unchanged |
| Display.Clip | ui/wasm-display.c:245-248 | a column (row) is in the clipped rectangle exactly when it lies in the request and inside the surface |
| Pixels.ToRgba | ui/wasm-display.c:261-264 | four bytes out, alpha forced to 0xFF |
| Pixels.BgrxBecomesRgba | ui/wasm-display.c:257-267 | a pixel stored as blue, green, red, X is written as red, green, blue, 0xFF |
| Pixels.TopByteIgnored | ui/wasm-display.c:259-264 | the top byte of the source pixel never reaches the output |
| Display.BlitConverts | ui/wasm-display.c:251-267 | for 32-bit surfaces every pixel of the rectangle lands, converted to RGBA, at row*stride + col*4 |
| Display.BlitCopies | ui/wasm-display.c:268-271 | for other depths each row of the rectangle is copied byte for byte from the surface |
| Display.BlitKeeps | ui/wasm-display.c:251-272 | bytes outside the rows and columns of the rectangle keep their value |
| Display.AsWrittenRegion | ui/wasm-display.c:245-248 | as written: the request is clipped to the surface only |
| Display.AsWrittenUpdateEnd | ui/wasm-display.c:251-272 | as written: a non-empty copy writes past (last row)*fb_info.stride, using the stride of the last accepted surface |
| Display.OversizeSwitchThenUpdateOverruns | ui/wasm-display.c:304-308 | after a 3841x2160 switch is rejected, the next full update writes to byte 2159*4096+3841*4, past the 3 MiB buffer |
| Display.UpdateRegion | ui/wasm-display.c:245-248 | corrected: a column is copied exactly when it is in the request, the surface and the image fb_info describes |
| Display.RegionsAgreeWhenSurfaceFits | ui/wasm-display.c:245-248 | whenever the surface fits fb_info, as after every accepted switch, the corrected region is the one the code computes |
| Display.UpdateStaysInBuffer | ui/wasm-display.c:251-272 | the corrected copy never writes at or past the allocated size |
| Display.Updated | ui/wasm-display.c:251-272 | the new buffer: converted pixels for 32-bit surfaces, copied bytes otherwise, every other byte unchanged |
| Display.Update | ui/wasm-display.c:228-285 | corrected clipping (first row of Findings): no surface: nothing changes; otherwise the buffer is updated over UpdateRegion, dirty is set and frame_count grows by exactly one, nothing else changes |
| Display.Switch | ui/wasm-display.c:287-338 | records the surface; a NULL or oversize one changes nothing else; an accepted one grows the buffer to at least width*4*height, sets stride width*4 and 32 bpp, marks dirty, adds two frames, and holds every pixel of the surface converted for 32-bit surfaces and copied byte for byte otherwise |
| Display.Apply | ui/wasm-display.c:111-338 | each acknowledgement, update or switch keeps the display well formed |
| Display.RunIsMonotone | ui/wasm-display.c:287-338 | over any run of events the allocation never shrinks and frame_count never decreases |
| DisplayInput.MapButton | ui/wasm-display.c:182-195 | buttons 0, 1, 2 map to left, middle, right and nothing else maps |
| DisplayInput.MapButtonRoundTrip | ui/wasm-display.c:182-195 | mapping and the browser numbering undo each other |
| DisplayInput.MouseButton | ui/wasm-display.c:176-199 | one press or release of the mapped button followed by a sync, and nothing for unknown buttons or no state |
| DisplayInput.MouseWheel | ui/wasm-display.c:204-217 | a press and release of wheel-up for dy > 0 or wheel-down for dy < 0, each followed by a sync; nothing for dy == 0 |
| DisplayInput.WheelIgnoresDxAndMagnitude | ui/wasm-display.c:204-217 | the events depend only on the sign of dy, never on dx, and every press is released |

## Left out

- The `!wasm_gpu_state` guards of the GPU hooks: every GPU operation is modelled on an initialised state, because before `wasm_gpu_init` they return -1 or NULL, report every fence as signalled (`wasm_gpu_fence_is_signaled` returns true), or, for the `void` hooks, simply return, without touching anything.
- NULL `res`, `scanout` and `blob` arguments of the GPU hooks, for the same reason: they are early returns with no state change.
- All `EM_JS` and `EM_ASM` bodies. This covers browser detection, texture creation and upload, scanout, cursor and init notifications, and the Web Audio graph. Their results are parameters, and their calls appear only as the returned records (`Upload`, the scanout list of a flush, `CursorImage`, `Submission`, input events).
- audio/wasmaud.c, because its ring positions and free space live in JavaScript.
- Float arithmetic: volume, mute, input gain, latency, and int16/float conversion in the audio driver callbacks (`wasm_write`, `wasm_read`).
- The `volatile` ring positions and cross-thread timing. Producer and consumer calls are sequential and may interleave in any order.
- Audio shutdown, resume, suspend, input request and the autoplay query. These are JavaScript calls plus frees, with no bookkeeping beyond the state field.
- Keyboard events, mouse motion, `wasm_mouse_set`, `wasm_cursor_define`, `wasm_refresh`, and the framebuffer info/data/size getters. They are QEMU input plumbing or plain field reads.
- `wasm_gpu_cursor_move`, `wasm_gpu_get_capabilities`, `wasm_gpu_get_stats`, `wasm_gpu_notify_*` and `wasm_gpu_blob_unmap`. Each is a notification, a getter or a no-op.
- Raw memory: `g_malloc`, `g_free`, `memcpy` and `host_ptr` ownership. A pointer is an abstract `Ptr`. The blob allocation is a parameter, and the truncation of a 64-bit blob size by `g_malloc0` on a 32-bit target is not modelled.
- Display.Blit: the byte copy for surfaces that are not 32 bits per pixel has length `(max_x - x) * bpp`. The model copies nothing when the rectangle is empty. That is also the only case in which the C length could be negative.
- The NULL `fb_data` guard of `wasm_gfx_update`. It is never NULL once the display exists, so the only guard modelled is the missing surface.
- `int` overflow of `x + w` and `y + h` in the update rectangle. The model uses unbounded integers.
- The 64-bit wrap of counters that only grow by one or by a transfer size: `frames_rendered`, `commands_submitted`, byte counts, sample counts, `frame_count`.
- GpuContexts.ContextDestroy: destroying a context does not release its fences, and scanouts keep the ID of a destroyed resource. The model reproduces both and states no property about them.
- Where the general description and the code differ, the code is followed:
  - flush does no rectangle tracking;
  - transfer does not check the offset against the backing size;
  - submit does not check that the context exists;
  - attach and detach check only the ID ranges.
- Only the `__EMSCRIPTEN__` build of ui/wasm-virtio-gpu.c is modelled. The other build (lines 288-294) sets a Canvas2D backend with a 4096 texture limit and vendor strings, and transfer_to_host then does not count `bytes_uploaded` (lines 462-469).
- WasmAudio.Config: the `latency_hint` and `enable_input` fields of WasmAudioConfig (include/ui/wasm-audio.h lines 54 and 56) are not modelled. audio/wasmaudio.c never reads them.
- WasmAudio.Write, GetFree, FillBuffer: Write and GetFree require a channel count between 1 and 2^31-1 (`Framed`), the range include/ui/wasm-audio.h line 52 documents (1 for mono, 2 for stereo), because the source divides by it unchecked. FillBuffer does not divide and accepts any channel count.
- WasmAudio.PushInput: the sample count is a `nat`. A negative `int` from JavaScript would become a huge `size_t` for ring_write and decrease `samples_captured`, and that is not modelled.
- GpuFences: a fence ID of 0 is accepted as the code accepts it. The invariant-preserving statements take `fenceId != 0` as a hypothesis, and ZeroFenceIsMiscounted and ZeroPollReapsFreeSlot show what ID 0 does.

## Findings

| source | as written | input that shows it | evidently intended | confidence | as-written member | corrected member |
|---|---|---|---|---|---|---|
| ui/wasm-display.c:292-308, 245-272 | `wasm_gfx_switch` stores the new surface before rejecting it as too large, so `fb_info` keeps the previous stride and size. The next `wasm_gfx_update` clips only to the surface and writes rows with the old stride. | initial 1024x768 display, switch to a 3841x2160 32-bit surface, then update (0,0,3841,2160): the copy reaches byte 2159*4096+3841*4, past the 3145728-byte buffer | an update never writes outside `fb_allocated_size`, i.e. the copy is also clipped to the image `fb_info` describes (or the rejected surface is not stored) | not executed | Display.AsWrittenUpdateEnd | Display.UpdateRegion |
| ui/wasm-virtio-gpu.c:856-870, 746-748 | `wasm_gpu_reset_stats` zeroes `pending_fences` while fences are still pending; the next reaping poll decrements it from 0 | one created, unsignalled fence; reset; signal; poll: `pending_fences` becomes 2^32-1 | `pending_fences` counts the fence slots in use, so a statistics reset keeps it | not executed | GpuFences.ResetStatsAsWritten | GpuFences.ResetStats |

=== FILE: audio_ring.dfy ===
/** The single-producer/single-consumer sample ring of the WebAssembly audio
    backend (audio/wasmaudio.c, lines 39-57 and 104-158).

    The ring holds RingSize slots and two positions that are always reduced
    with the mask RingSize - 1. One slot is always left empty, so equal
    positions mean "empty" and never "full". The sample type is a parameter:
    nothing here depends on floating point. The `volatile` positions and the
    cross-thread timing are not modelled. Producer and consumer calls are
    pure transitions that may be interleaved in any order. */
module AudioRing {
  import opened Base

  /** WASM_AUDIO_RING_SIZE, a power of two. */
  const RingSize: nat := 16384

  /** A ring: the sample slots and the two positions. */
  datatype Ring<T> = Ring(buffer: seq<T>, readPos: nat, writePos: nat)
  {
    /** The shape every ring keeps: RingSize slots, positions already masked. */
    predicate Valid()
    {
      |buffer| == RingSize && readPos < RingSize && writePos < RingSize
    }
  }

  /** `x & WASM_AUDIO_RING_MASK` for a 32-bit unsigned `x`. Because RingSize
      is a power of two dividing 2^32, masking is reduction modulo RingSize. */
  function Masked(x: int): (m: nat)
    requires 0 <= x < U32
    ensures m < RingSize
  {
    x % RingSize
  }

  /** How far `to` lies ahead of `from` when walking the ring forwards. */
  function Ahead(from: nat, to: nat): (d: nat)
    requires from < RingSize && to < RingSize
    ensures d < RingSize
    ensures (from + d) % RingSize == to
  {
    if to >= from then to - from else RingSize + to - from
  }

  /** Slot reached from `from` after `d` steps forward. */
  function Step(from: nat, d: nat): (p: nat)
    requires from < RingSize && d < RingSize
    ensures p < RingSize
    ensures p == if from + d < RingSize then from + d else from + d - RingSize
    ensures Ahead(from, p) == d
  {
    (from + d) % RingSize
  }

  /** ring_available_read: (w - r) & mask, computed on uint32_t. */
  function AvailableRead<T>(ring: Ring<T>): (n: nat)
    requires ring.Valid()
    ensures n == Ahead(ring.readPos, ring.writePos)
    ensures n == 0 <==> ring.readPos == ring.writePos
  {
    Masked((ring.writePos - ring.readPos) % U32)
  }

  /** ring_available_write: (r - w - 1) & mask, computed on uint32_t. Reader
      and writer views add up to RingSize - 1: one slot always stays empty. */
  function AvailableWrite<T>(ring: Ring<T>): (n: nat)
    requires ring.Valid()
    ensures n + AvailableRead(ring) == RingSize - 1
  {
    Masked((ring.readPos - ring.writePos - 1) % U32)
  }

  /** The samples written and not yet read, oldest first: the abstract value
      of the ring. */
  function Contents<T>(ring: Ring<T>): (c: seq<T>)
    requires ring.Valid()
  {
    seq(AvailableRead(ring), i requires 0 <= i < AvailableRead(ring) =>
      ring.buffer[Step(ring.readPos, i)])
  }

  /** The ring as set up by wasm_audio_init: a zero-filled buffer and both
      positions at zero. */
  function Fresh<T>(zero: T): (ring: Ring<T>)
    ensures ring.Valid()
    ensures Contents(ring) == []
    ensures AvailableWrite(ring) == RingSize - 1
  {
    Ring(seq(RingSize, _ => zero), 0, 0)
  }

  /** The two memcpy calls of ring_write: `n` samples of `data` go to the
      slots starting at `w`, split at the end of the buffer when needed. */
  function CopyIn<T>(buffer: seq<T>, w: nat, data: seq<T>, n: nat): (b: seq<T>)
    requires |buffer| == RingSize && w < RingSize && n < RingSize && n <= |data|
    ensures |b| == RingSize
  {
    var toEnd := RingSize - w;
    if n <= toEnd then buffer[..w] + data[..n] + buffer[w + n..]
    else data[toEnd..n] + buffer[n - toEnd..w] + data[..toEnd]
  }

  /** Slot by slot, CopyIn puts `data[d]` d steps after `w` for d < n and
      keeps every other slot. */
  lemma CopyInSlots<T>(buffer: seq<T>, w: nat, data: seq<T>, n: nat)
    requires |buffer| == RingSize && w < RingSize && n < RingSize && n <= |data|
    ensures forall d :: 0 <= d < n ==> CopyIn(buffer, w, data, n)[Step(w, d)] == data[d]
    ensures forall k :: 0 <= k < RingSize && Ahead(w, k) >= n ==>
      CopyIn(buffer, w, data, n)[k] == buffer[k]
  {
    var b := CopyIn(buffer, w, data, n);
    var toEnd := RingSize - w;
    if n <= toEnd {
      forall k | 0 <= k < RingSize
        ensures b[k] == if Ahead(w, k) < n then data[Ahead(w, k)] else buffer[k]
      {
        if k < w {
        } else if k < w + n {
        } else {
        }
      }
    } else {
      forall k | 0 <= k < RingSize
        ensures b[k] == if Ahead(w, k) < n then data[Ahead(w, k)] else buffer[k]
      {
        if k < n - toEnd {
          assert b[k] == data[toEnd + k];
        } else if k < w {
          assert b[k] == buffer[k];
        } else {
          assert b[k] == data[k - w];
        }
      }
    }
    forall d | 0 <= d < n
      ensures b[Step(w, d)] == data[d]
    {
      assert Ahead(w, Step(w, d)) == d;
    }
  }

  /** Outcome of ring_write: the new ring and the returned count. */
  datatype Written<T> = Written(ring: Ring<T>, count: nat)

  /** ring_write: truncate `count` to the free space, copy in one chunk or in
      two around the end of the buffer, then publish the new write position. */
  function Write<T>(ring: Ring<T>, data: seq<T>, count: nat): (r: Written<T>)
    requires ring.Valid()
    requires count <= |data|
    ensures r.ring.Valid()
    ensures r.count == Min(count, AvailableWrite(ring))
    ensures r.ring.readPos == ring.readPos
    ensures r.ring.writePos == Step(ring.writePos, r.count)
    ensures forall d :: 0 <= d < r.count ==> r.ring.buffer[Step(ring.writePos, d)] == data[d]
    ensures forall k :: 0 <= k < RingSize && Ahead(ring.writePos, k) >= r.count ==>
              r.ring.buffer[k] == ring.buffer[k]
  {
    var avail := AvailableWrite(ring);
    var n := if count > avail then avail else count;
    var w := ring.writePos;
    var buffer := CopyIn(ring.buffer, w, data, n);
    CopyInSlots(ring.buffer, w, data, n);
    assert (w + n) % U32 == w + n;
    Written(Ring(buffer, ring.readPos, Masked((w + n) % U32)), n)
  }

  /** Outcome of ring_read: the new ring and the samples copied out. */
  datatype Drained<T> = Drained(ring: Ring<T>, samples: seq<T>)

  /** ring_read: truncate `count` to the unread samples, copy them out in one
      chunk or two, then publish the new read position. */
  function Read<T>(ring: Ring<T>, count: nat): (r: Drained<T>)
    requires ring.Valid()
    ensures r.ring.Valid()
    ensures |r.samples| == Min(count, AvailableRead(ring))
    ensures forall d :: 0 <= d < |r.samples| ==> r.samples[d] == ring.buffer[Step(ring.readPos, d)]
    ensures r.ring.buffer == ring.buffer
    ensures r.ring.writePos == ring.writePos
    ensures r.ring.readPos == Step(ring.readPos, |r.samples|)
  {
    var avail := AvailableRead(ring);
    var n := if count > avail then avail else count;
    var rp := ring.readPos;
    var toEnd := RingSize - rp;
    var samples :=
      if n <= toEnd then ring.buffer[rp..rp + n]
      else ring.buffer[rp..] + ring.buffer[..n - toEnd];
    assert (rp + n) % U32 == rp + n;
    Drained(ring.(readPos := Masked((rp + n) % U32)), samples)
  }

  /** A ring never reports both empty and full. */
  lemma NeverEmptyAndFull<T>(ring: Ring<T>)
    requires ring.Valid()
    ensures !(AvailableRead(ring) == 0 && AvailableWrite(ring) == 0)
    ensures AvailableRead(ring) < RingSize && AvailableWrite(ring) < RingSize
  {
  }

  /** Writing appends exactly the accepted prefix of `data` to the unread
      samples: nothing unread is overwritten. */
  lemma WriteAppends<T>(ring: Ring<T>, data: seq<T>, count: nat)
    requires ring.Valid() && count <= |data|
    ensures var r := Write(ring, data, count);
            Contents(r.ring) == Contents(ring) + data[..r.count]
  {
    var r := Write(ring, data, count);
    var c, c' := Contents(ring), Contents(r.ring);
    var a, n := AvailableRead(ring), r.count;
    assert |c'| == a + n;
    forall i | 0 <= i < |c'|
      ensures c'[i] == (c + data[..n])[i]
    {
      var k := Step(ring.readPos, i);
      if i < a {
        assert Ahead(ring.writePos, k) >= n;
      } else {
        assert k == Step(ring.writePos, i - a);
      }
    }
  }

  /** Reading removes exactly the samples it returns from the front of the
      unread samples, oldest first. */
  lemma ReadConsumes<T>(ring: Ring<T>, count: nat)
    requires ring.Valid()
    ensures var r := Read(ring, count);
            && r.samples == Contents(ring)[..|r.samples|]
            && Contents(r.ring) == Contents(ring)[|r.samples|..]
  {
    var r := Read(ring, count);
    var c, c' := Contents(ring), Contents(r.ring);
    var n := |r.samples|;
    assert |c'| == |c| - n;
    forall i | 0 <= i < |c'|
      ensures c'[i] == c[n + i]
    {
      assert Step(r.ring.readPos, i) == Step(ring.readPos, n + i);
    }
  }

  /** The samples a write accepts are the ones a later read returns, in the
      same order, after whatever was already waiting. */
  lemma WriteThenReadIsFifo<T>(ring: Ring<T>, data: seq<T>, count: nat)
    requires ring.Valid() && count <= |data|
    ensures var w := Write(ring, data, count);
            var r := Read(w.ring, |Contents(ring)| + w.count);
            r.samples == Contents(ring) + data[..w.count] && Contents(r.ring) == []
  {
    var w := Write(ring, data, count);
    WriteAppends(ring, data, count);
    ReadConsumes(w.ring, |Contents(ring)| + w.count);
  }

  /** Round trip: on an empty ring, at any position and therefore also across
      the wrap point, writing n <= ring_available_write samples and then
      reading n returns exactly those samples and leaves the ring empty. */
  lemma RoundTrip<T>(ring: Ring<T>, data: seq<T>)
    requires ring.Valid() && ring.readPos == ring.writePos
    requires |data| <= AvailableWrite(ring)
    ensures var w := Write(ring, data, |data|);
            && w.count == |data| && Read(w.ring, |data|).samples == data
            && Contents(Read(w.ring, |data|).ring) == []
  {
    WriteThenReadIsFifo(ring, data, |data|);
  }

  /** A write asking for more than the free space accepts strictly fewer
      samples and leaves the ring full. */
  lemma OverfullWriteFillsRing<T>(ring: Ring<T>, data: seq<T>, count: nat)
    requires ring.Valid() && count <= |data|
    requires count > AvailableWrite(ring)
    ensures var w := Write(ring, data, count);
            w.count < count && AvailableWrite(w.ring) == 0
  {
    WriteAppends(ring, data, count);
  }
}

=== FILE: base.dfy ===
/** Shared building blocks: an optional value, bytes, the fixed-width
    arithmetic of the C sources, and slot counting for fixed-capacity tables. */
module Base {

  /** The conventional Some/None datatype, used where the C code has a
      nullable pointer. */
  datatype Option<+T> = None | Some(value: T)

  /** An 8-bit byte, as `uint8_t`. */
  type Byte = bv8

  /** 2^32: `uint32_t`, and `size_t` on the 32-bit WebAssembly target. */
  const U32: int := 0x1_0000_0000

  /** 2^64: `uint64_t`. */
  const U64: int := 0x1_0000_0000_0000_0000

  /** `x++` on a `uint32_t`. */
  function Inc32(x: nat): (r: nat)
    requires x < U32
    ensures r < U32
    ensures x + 1 < U32 ==> r == x + 1
    ensures x + 1 == U32 ==> r == 0
  {
    (x + 1) % U32
  }

  /** `x--` on a `uint32_t`: wraps to 2^32 - 1 below zero. */
  function Dec32(x: nat): (r: nat)
    requires x < U32
    ensures r < U32
    ensures x > 0 ==> r == x - 1
    ensures x == 0 ==> r == U32 - 1
  {
    (x - 1) % U32
  }

  /** `a += b` on a `uint64_t`. */
  function Add64(a: nat, b: nat): (r: nat)
    requires a < U64 && b < U64
    ensures r < U64
    ensures a + b < U64 ==> r == a + b
  {
    (a + b) % U64
  }

  /** `a -= b` on a `uint64_t`: wraps around below zero. */
  function Sub64(a: nat, b: nat): (r: nat)
    requires a < U64 && b < U64
    ensures r < U64
    ensures b <= a ==> r == a - b
    ensures a < b ==> r == U64 + a - b
  {
    (a - b) % U64
  }

  function Min(a: int, b: int): (m: int)
    ensures m <= a && m <= b && (m == a || m == b)
  {
    if a < b then a else b
  }

  function Max(a: int, b: int): (m: int)
    ensures m >= a && m >= b && (m == a || m == b)
  {
    if a < b then b else a
  }

  /** Multiplying by a non-negative factor keeps the order. */
  lemma MulMonoLe(a: int, b: int, c: int)
    requires c >= 0 && a <= b
    ensures a * c <= b * c
  {
  }

  /** A positive factor can be cancelled from both sides. */
  lemma MulCancelLe(a: int, b: int, c: int)
    requires c > 0 && a * c <= b * c
    ensures a <= b
  {
  }

  /** A positive factor can be cancelled from a strict inequality. */
  lemma MulCancelLt(a: int, b: int, c: int)
    requires c > 0 && a * c < b * c
    ensures a < b
  {
  }

  /** Integer division rounds down to a whole number of divisors. */
  lemma DivBounds(n: nat, c: int)
    requires c > 0
    ensures (n / c) * c <= n < (n / c + 1) * c
  {
  }

  /** Number of elements of `s` satisfying `p`: the occupancy of a
      fixed-capacity table whose free slots fail `p`. */
  function Count<T>(s: seq<T>, p: T -> bool): (n: nat)
    ensures n <= |s|
  {
    if |s| == 0 then 0 else Count(s[..|s| - 1], p) + (if p(s[|s| - 1]) then 1 else 0)
  }

  /** Counting over a concatenation adds up. */
  lemma {:induction false} CountAppend<T>(a: seq<T>, b: seq<T>, p: T -> bool)
    ensures Count(a + b, p) == Count(a, p) + Count(b, p)
    decreases |b|
  {
    if |b| == 0 {
      assert a + b == a;
    } else {
      var b' := b[..|b| - 1];
      assert (a + b)[..|a + b| - 1] == a + b';
      CountAppend(a, b', p);
      assert Count(b, p) == Count(b', p) + (if p(b[|b| - 1]) then 1 else 0);
    }
  }

  /** Replacing one slot changes the count only by what that slot
      contributes before and after. */
  lemma CountUpdate<T>(s: seq<T>, i: nat, v: T, p: T -> bool)
    requires i < |s|
    ensures Count(s[i := v], p)
            == Count(s, p) - (if p(s[i]) then 1 else 0) + (if p(v) then 1 else 0)
  {
    var pre, post := s[..i], s[i + 1..];
    assert s == pre + [s[i]] + post;
    assert s[i := v] == pre + [v] + post;
    CountAppend(pre + [s[i]], post, p);
    CountAppend(pre, [s[i]], p);
    CountAppend(pre + [v], post, p);
    CountAppend(pre, [v], p);
    assert Count([s[i]], p) == (if p(s[i]) then 1 else 0) by {
      assert [s[i]][..0] == [];
    }
    assert Count([v], p) == (if p(v) then 1 else 0) by {
      assert [v][..0] == [];
    }
  }

  /** A table whose every slot fails `p` has occupancy zero. */
  lemma {:induction false} CountNone<T>(s: seq<T>, p: T -> bool)
    requires forall i :: 0 <= i < |s| ==> !p(s[i])
    ensures Count(s, p) == 0
    decreases |s|
  {
    if |s| > 0 {
      CountNone(s[..|s| - 1], p);
    }
  }

  /** A slot that satisfies `p` contributes to the count. */
  lemma {:induction false} CountPositive<T>(s: seq<T>, i: nat, p: T -> bool)
    requires i < |s| && p(s[i])
    ensures Count(s, p) > 0
    decreases |s|
  {
    if i < |s| - 1 {
      CountPositive(s[..|s| - 1], i, p);
    }
  }

  /** Every slot satisfies `p`: the count is the capacity. */
  lemma {:induction false} CountAll<T>(s: seq<T>, p: T -> bool)
    requires forall i :: 0 <= i < |s| ==> p(s[i])
    ensures Count(s, p) == |s|
    decreases |s|
  {
    if |s| > 0 {
      CountAll(s[..|s| - 1], p);
    }
  }

  /** Conversely, a count equal to the capacity means every slot satisfies
      `p`: a full table has no free slot. */
  lemma {:induction false} CountFull<T>(s: seq<T>, p: T -> bool)
    requires Count(s, p) == |s|
    ensures forall i :: 0 <= i < |s| ==> p(s[i])
    decreases |s|
  {
    if |s| > 0 {
      var s' := s[..|s| - 1];
      assert Count(s', p) == |s'| && p(s[|s| - 1]);
      CountFull(s', p);
      forall i | 0 <= i < |s|
        ensures p(s[i])
      {
        if i < |s| - 1 {
          assert s[i] == s'[i];
        }
      }
    }
  }
}

=== FILE: display.dfy ===
/** The framebuffer export of the WebAssembly display backend
    (ui/wasm-display.c). QEMU hands the backend a surface. The backend
    copies changed rectangles into its own RGBA buffer, raises a dirty flag
    and counts frames. JavaScript reads the buffer, then acknowledges.

    The display state exists only once a graphic console has been found.
    From then on `fb_data` is never NULL: it starts at 1024x768x4 bytes,
    and it is only ever replaced by a larger non-empty buffer. The
    surface's own memory is a byte sequence of `stride * height` bytes. */
module Display {
  import opened Base
  import Pixels

  /** WASM_FB_MAX_WIDTH, WASM_FB_MAX_HEIGHT and WASM_FB_MAX_SIZE. */
  const MaxWidth: nat := 3840
  const MaxHeight: nat := 2160
  const MaxSize: nat := MaxWidth * MaxHeight * 4

  /** WASM_FB_DEFAULT_WIDTH and _HEIGHT, and the initial allocation. */
  const DefaultWidth: nat := 1024
  const DefaultHeight: nat := 768
  const DefaultSize: nat := DefaultWidth * DefaultHeight * 4

  /** The parts of a DisplaySurface the backend reads. */
  datatype Surface = Surface(width: nat, height: nat, stride: nat, bytesPerPixel: nat, format: nat, data: seq<Byte>)
  {
    /** A pixman surface: 1 to 4 bytes per pixel, rows of `stride` bytes
        wide enough for a line of pixels. */
    predicate Valid()
    {
      && 1 <= bytesPerPixel <= 4
      && width * bytesPerPixel <= stride
      && |data| == stride * height
    }
  }

  /** WasmFramebufferInfo without the data pointer. */
  datatype FbInfo = FbInfo(width: nat, height: nat, stride: nat, bpp: nat, format: nat, dirty: bool, frameCount: nat)

  /** WasmDisplayState: the current surface, the exported buffer with its
      allocated size, and the information JavaScript reads. */
  datatype Display = Display(ds: Option<Surface>, fb: seq<Byte>, allocatedSize: nat, info: FbInfo)
  {
    /** The buffer is as large as recorded, never above the 4K maximum, and
        holds the image that `info` describes: RGBA rows of `width * 4`
        bytes. */
    predicate Valid()
    {
      && |fb| == allocatedSize
      && allocatedSize <= MaxSize
      && info.width <= MaxWidth && info.height <= MaxHeight
      && info.stride == info.width * 4 && info.bpp == 32
      && info.stride * info.height <= allocatedSize
      && (ds.Some? ==> ds.value.Valid())
    }
  }

  /** `wasm_display_state`: NULL until initialisation finds a console. */
  type Global = Option<Display>

  /** wasm_display_init: allocate the default zero-filled buffer and
      describe it. Without a graphic console everything is freed again
      and the global stays NULL. */
  function Init(hasConsole: bool): (g: Global)
    ensures g.Some? <==> hasConsole
    ensures g.Some? ==>
      && g.value.Valid()
      && g.value.ds.None?
      && g.value.allocatedSize == DefaultSize
      && g.value.info == FbInfo(DefaultWidth, DefaultHeight, DefaultWidth * 4, 32, 0, false, 0)
  {
    if !hasConsole then None
    else Some(Display(None, seq(DefaultSize, _ => 0), DefaultSize,
                      FbInfo(DefaultWidth, DefaultHeight, DefaultWidth * 4, 32, 0, false, 0)))
  }

  /** wasm_framebuffer_ack: clear the dirty flag and nothing else; no-op
      without a state. */
  function Ack(g: Global): (g': Global)
    ensures g.None? <==> g'.None?
    ensures g.Some? ==> g'.value == g.value.(info := g.value.info.(dirty := false))
  {
    match g
    case None => None
    case Some(d) => Some(d.(info := d.info.(dirty := false)))
  }

  /** wasm_framebuffer_is_dirty: the flag, or false without a state. */
  function IsDirty(g: Global): (dirty: bool)
    ensures dirty <==> g.Some? && g.value.info.dirty
  {
    g.Some? && g.value.info.dirty
  }

  /** wasm_get_frame_count: the counter, or 0 without a state. */
  function FrameCount(g: Global): (n: nat)
    ensures g.None? ==> n == 0
    ensures g.Some? ==> n == g.value.info.frameCount
  {
    if g.None? then 0 else g.value.info.frameCount
  }

  /** After an acknowledgement the buffer reads clean, and the frame
      counter is unchanged. */
  lemma AckClears(g: Global)
    ensures !IsDirty(Ack(g)) && FrameCount(Ack(g)) == FrameCount(g)
  {
  }

  /** A half-open pixel rectangle: columns x0 <= c < x1 and rows
      y0 <= r < y1. It is empty when x1 <= x0 or y1 <= y0. */
  datatype Rect = Rect(x0: nat, y0: nat, x1: nat, y1: nat)
  {
    predicate HasCol(c: int)
    {
      x0 <= c < x1
    }

    predicate HasRow(row: int)
    {
      y0 <= row < y1
    }

    /** Number of columns covered. */
    function Cols(): nat
    {
      if x1 > x0 then x1 - x0 else 0
    }
  }

  function NonNeg(v: int): (n: nat)
    ensures n == Max(0, v)
  {
    if v < 0 then 0 else v
  }

  /** The clipping at the top of wasm_gfx_update: the end is cut to the
      given size, the start to 0. The result covers exactly the pixels of
      the requested rectangle that lie inside `width` x `height`. */
  function Clip(x: int, y: int, w: int, h: int, width: nat, height: nat): (r: Rect)
    ensures r.x1 <= width && r.y1 <= height
    ensures forall c: int :: r.HasCol(c) <==> 0 <= c < width && x <= c < x + w
    ensures forall row: int :: r.HasRow(row) <==> 0 <= row < height && y <= row < y + h
  {
    Rect(NonNeg(x), NonNeg(y), NonNeg(Min(x + w, width)), NonNeg(Min(y + h, height)))
  }

  /** Index of channel `ch` of pixel (`row`, `col`) in an RGBA buffer with
      rows of `stride` bytes. */
  function PixelAt(stride: nat, row: nat, col: nat, ch: nat): nat
  {
    row * stride + col * 4 + ch
  }

  /** Index of byte `j` after pixel column `x0` of row `row` in an RGBA
      buffer with rows of `stride` bytes. */
  function ByteAt(stride: nat, row: nat, x0: nat, j: nat): nat
  {
    row * stride + x0 * 4 + j
  }

  /** Division by the row length recovers row and offset. */
  lemma DivModOf(row: nat, off: nat, stride: nat)
    requires off < stride
    ensures (row * stride + off) / stride == row
    ensures (row * stride + off) % stride == off
  {
    var n := row * stride + off;
    var q, r := n / stride, n % stride;
    assert q * stride + r == n;
    assert (q - row) * stride == off - r;
    if q > row {
      MulMonoLe(1, q - row, stride);
      assert false;
    } else if q < row {
      MulMonoLe(1, row - q, stride);
      assert false;
    }
  }

  /** A byte range inside one row of a surface lies inside its data. */
  lemma SourceFits(s: Surface, row: nat, off: nat, len: nat)
    requires s.Valid() && row < s.height && off + len <= s.stride
    ensures row * s.stride + off + len <= |s.data|
  {
    MulMonoLe(row + 1, s.height, s.stride);
  }

  /** The RGBA bytes of surface pixel (`row`, `col`) of a 32-bit surface. */
  function Pixel(s: Surface, row: nat, col: nat): (rgba: seq<Byte>)
    requires s.Valid() && s.bytesPerPixel == 4 && row < s.height && col < s.width
    ensures |rgba| == 4
  {
    SourceFits(s, row, col * 4, 4);
    Pixels.ToRgba(Pixels.Load32(s.data, row * s.stride + col * 4))
  }

  /** Byte `i` of row `row` of a surface. */
  function SourceByte(s: Surface, row: nat, i: nat): Byte
    requires s.Valid() && row < s.height && i < s.stride
  {
    SourceFits(s, row, i, 1);
    s.data[row * s.stride + i]
  }

  /** What a copy of rectangle `r` of `s` may write in a buffer with rows of
      `stride` bytes: in each covered row, `Cols * bytesPerPixel` bytes from
      byte `x0 * 4` on. That is four bytes per pixel for 32-bit surfaces, and
      a raw memcpy of the source bytes otherwise. */
  predicate Covered(stride: nat, s: Surface, r: Rect, k: nat)
  {
    && stride > 0
    && r.y0 <= k / stride < r.y1
    && r.x0 * 4 <= k % stride < r.x0 * 4 + r.Cols() * s.bytesPerPixel
  }

  /** The shape a copy needs: the rectangle lies in the surface, and its
      rows fit in the buffer's rows. */
  predicate Blittable(fb: seq<Byte>, stride: nat, s: Surface, r: Rect)
  {
    && s.Valid()
    && r.x1 <= s.width && r.y1 <= s.height
    && r.x1 * 4 <= stride
    && r.y1 * stride <= |fb|
  }

  /** The new value of buffer byte `k` after copying `r` of `s`. */
  function NewByte(fb: seq<Byte>, stride: nat, s: Surface, r: Rect, k: nat): Byte
    requires Blittable(fb, stride, s, r) && k < |fb|
  {
    if !Covered(stride, s, r, k) then fb[k]
    else
      var row, off := k / stride, k % stride;
      if s.bytesPerPixel == 4 then
        Pixel(s, row, off / 4)[off % 4]
      else
        var j := off - r.x0 * 4;
        MulMonoLe(r.x1, s.width, s.bytesPerPixel);
        assert r.x0 * s.bytesPerPixel + r.Cols() * s.bytesPerPixel == r.x1 * s.bytesPerPixel;
        SourceByte(s, row, r.x0 * s.bytesPerPixel + j)
  }

  /** The copy loop of wasm_gfx_update for rectangle `r`. */
  function Blit(fb: seq<Byte>, stride: nat, s: Surface, r: Rect): (out: seq<Byte>)
    requires Blittable(fb, stride, s, r)
    ensures |out| == |fb|
  {
    seq(|fb|, k requires 0 <= k < |fb| => NewByte(fb, stride, s, r, k))
  }

  /** `out` holds every pixel of rectangle `r` of the 32-bit surface `s`,
      converted to RGBA, at its own place in rows of `stride` bytes. */
  predicate Converted(out: seq<Byte>, stride: nat, s: Surface, r: Rect)
    requires s.Valid() && s.bytesPerPixel == 4 && r.x1 <= s.width && r.y1 <= s.height
  {
    forall row: nat, col: nat, ch: nat :: r.y0 <= row < r.y1 && r.x0 <= col < r.x1 && ch < 4 ==>
      PixelAt(stride, row, col, ch) < |out| && out[PixelAt(stride, row, col, ch)] == Pixel(s, row, col)[ch]
  }

  /** `out` holds, from byte `x0 * 4` of each row of `r`, the source bytes
      of that row of `s` unchanged. */
  predicate Copied(out: seq<Byte>, stride: nat, s: Surface, r: Rect)
    requires s.Valid() && r.x1 <= s.width && r.y1 <= s.height
  {
    forall row: nat, j: nat :: r.y0 <= row < r.y1 && j < r.Cols() * s.bytesPerPixel ==>
      && ByteAt(stride, row, r.x0, j) < |out|
      && r.x0 * s.bytesPerPixel + j < s.stride
      && out[ByteAt(stride, row, r.x0, j)] == SourceByte(s, row, r.x0 * s.bytesPerPixel + j)
  }

  /** `out` agrees with `fb` everywhere a copy of `r` does not write. */
  predicate Kept(out: seq<Byte>, fb: seq<Byte>, stride: nat, s: Surface, r: Rect)
  {
    |out| == |fb| && forall k: nat :: k < |fb| && !Covered(stride, s, r, k) ==> out[k] == fb[k]
  }

  /** For a 32-bit surface every pixel of the rectangle arrives, converted
      to RGBA, at its own place in the buffer. */
  lemma BlitConverts(fb: seq<Byte>, stride: nat, s: Surface, r: Rect)
    requires Blittable(fb, stride, s, r) && s.bytesPerPixel == 4
    ensures Converted(Blit(fb, stride, s, r), stride, s, r)
  {
    forall row: nat, col: nat, ch: nat | r.y0 <= row < r.y1 && r.x0 <= col < r.x1 && ch < 4
      ensures PixelAt(stride, row, col, ch) < |fb|
      ensures Blit(fb, stride, s, r)[PixelAt(stride, row, col, ch)] == Pixel(s, row, col)[ch]
    {
      ConvertsAt(fb, stride, s, r, row, col, ch);
    }
  }

  /** BlitConverts for one byte. */
  lemma ConvertsAt(fb: seq<Byte>, stride: nat, s: Surface, r: Rect, row: nat, col: nat, ch: nat)
    requires Blittable(fb, stride, s, r) && s.bytesPerPixel == 4
    requires r.y0 <= row < r.y1 && r.x0 <= col < r.x1 && ch < 4
    ensures PixelAt(stride, row, col, ch) < |fb|
    ensures Blit(fb, stride, s, r)[PixelAt(stride, row, col, ch)] == Pixel(s, row, col)[ch]
  {
    var k, off := PixelAt(stride, row, col, ch), col * 4 + ch;
    DivModOf(row, off, stride);
    DivModOf(col, ch, 4);
    MulMonoLe(row + 1, r.y1, stride);
    assert k < |fb|;
    assert k / stride == row && k % stride == off;
    assert Covered(stride, s, r, k);
    assert NewByte(fb, stride, s, r, k) == Pixel(s, row, off / 4)[off % 4];
  }

  /** For a surface of another depth each covered row receives the
      source bytes of the rectangle unchanged, starting at byte `x0 * 4`. */
  lemma BlitCopies(fb: seq<Byte>, stride: nat, s: Surface, r: Rect)
    requires Blittable(fb, stride, s, r) && s.bytesPerPixel != 4
    ensures Copied(Blit(fb, stride, s, r), stride, s, r)
  {
    forall row: nat, j: nat | r.y0 <= row < r.y1 && j < r.Cols() * s.bytesPerPixel
      ensures ByteAt(stride, row, r.x0, j) < |fb|
      ensures r.x0 * s.bytesPerPixel + j < s.stride
      ensures Blit(fb, stride, s, r)[ByteAt(stride, row, r.x0, j)] == SourceByte(s, row, r.x0 * s.bytesPerPixel + j)
    {
      CopiesAt(fb, stride, s, r, row, j);
    }
  }

  /** BlitCopies for one byte. */
  lemma CopiesAt(fb: seq<Byte>, stride: nat, s: Surface, r: Rect, row: nat, j: nat)
    requires Blittable(fb, stride, s, r) && s.bytesPerPixel != 4
    requires r.y0 <= row < r.y1 && j < r.Cols() * s.bytesPerPixel
    ensures ByteAt(stride, row, r.x0, j) < |fb|
    ensures r.x0 * s.bytesPerPixel + j < s.stride
    ensures Blit(fb, stride, s, r)[ByteAt(stride, row, r.x0, j)] == SourceByte(s, row, r.x0 * s.bytesPerPixel + j)
  {
    var k, off := ByteAt(stride, row, r.x0, j), r.x0 * 4 + j;
    MulMonoLe(s.bytesPerPixel, 4, r.Cols());
    MulMonoLe(r.x1, s.width, s.bytesPerPixel);
    assert r.x0 * s.bytesPerPixel + r.Cols() * s.bytesPerPixel == r.x1 * s.bytesPerPixel;
    assert off < stride;
    DivModOf(row, off, stride);
    MulMonoLe(row + 1, r.y1, stride);
    assert k < |fb|;
    assert k / stride == row && k % stride == off;
    assert Covered(stride, s, r, k);
  }

  /** Bytes outside the rectangle's rows and columns keep their value. */
  lemma BlitKeeps(fb: seq<Byte>, stride: nat, s: Surface, r: Rect)
    requires Blittable(fb, stride, s, r)
    ensures Kept(Blit(fb, stride, s, r), fb, stride, s, r)
  {
  }

  /** The surface rectangle wasm_gfx_update copies, as the code is written:
      the request clipped to the surface only. */
  function AsWrittenRegion(d: Display, x: int, y: int, w: int, h: int): (r: Rect)
    requires d.ds.Some?
    ensures r.x1 <= d.ds.value.width && r.y1 <= d.ds.value.height
  {
    Clip(x, y, w, h, d.ds.value.width, d.ds.value.height)
  }

  /** One past the highest buffer index a copy of `r` writes with rows of
      `stride` bytes and `bpp` bytes per pixel, or 0 when it writes
      nothing. */
  function WriteEnd(r: Rect, stride: nat, bpp: nat): nat
  {
    if r.Cols() == 0 || r.y1 <= r.y0 then 0
    else (r.y1 - 1) * stride + r.x0 * 4 + r.Cols() * bpp
  }

  /** Where the AS-WRITTEN update stops writing: rows keep the stride of
      `fb_info`, which still describes the last accepted surface. */
  function AsWrittenUpdateEnd(d: Display, x: int, y: int, w: int, h: int): (end: nat)
    requires d.Valid() && d.ds.Some?
    ensures var r := AsWrittenRegion(d, x, y, w, h);
            if r.Cols() > 0 && r.y1 > r.y0 then end > (r.y1 - 1) * d.info.stride else end == 0
  {
    var r := AsWrittenRegion(d, x, y, w, h);
    MulMonoLe(1, d.ds.value.bytesPerPixel, r.Cols());
    WriteEnd(r, d.info.stride, d.ds.value.bytesPerPixel)
  }

  /** The rectangle the corrected update copies: the request clipped to
      the surface AND to the image `fb_info` describes. */
  function UpdateRegion(d: Display, x: int, y: int, w: int, h: int): (r: Rect)
    requires d.ds.Some?
    ensures r.x1 <= d.ds.value.width && r.y1 <= d.ds.value.height
    ensures r.x1 <= d.info.width && r.y1 <= d.info.height
    ensures forall c: int :: r.HasCol(c) <==>
      0 <= c < d.ds.value.width && c < d.info.width && x <= c < x + w
  {
    Clip(x, y, w, h, Min(d.ds.value.width, d.info.width), Min(d.ds.value.height, d.info.height))
  }

  /** When the surface fits the described image, as after every accepted
      switch, the corrected region is the one the code computes. */
  lemma RegionsAgreeWhenSurfaceFits(d: Display, x: int, y: int, w: int, h: int)
    requires d.ds.Some? && d.ds.value.width <= d.info.width && d.ds.value.height <= d.info.height
    ensures UpdateRegion(d, x, y, w, h) == AsWrittenRegion(d, x, y, w, h)
  {
  }

  /** The corrected update never writes outside the allocated buffer. */
  lemma UpdateStaysInBuffer(d: Display, x: int, y: int, w: int, h: int)
    requires d.Valid() && d.ds.Some?
    ensures WriteEnd(UpdateRegion(d, x, y, w, h), d.info.stride, d.ds.value.bytesPerPixel) <= d.allocatedSize
  {
    var r, bpp, stride := UpdateRegion(d, x, y, w, h), d.ds.value.bytesPerPixel, d.info.stride;
    if r.Cols() > 0 && r.y1 > r.y0 {
      var cols, last := r.Cols(), r.y1 - 1;
      MulMonoLe(bpp, 4, cols);
      assert r.x0 * 4 + cols * bpp <= stride;
      RowsFit(last, d.info.height, stride, d.allocatedSize);
    }
  }

  /** Rows `0 .. last` of `stride` bytes fit in `size` bytes when `height`
      rows do and `last < height`. */
  lemma RowsFit(last: nat, height: nat, stride: nat, size: nat)
    requires last < height && stride * height <= size
    ensures last * stride + stride <= size
  {
    MulMonoLe(last + 1, height, stride);
  }

  /** The buffer after one update of a registered display (corrected
      clipping). For a 32-bit surface each pixel of the rectangle is
      converted to RGBA; other depths are copied byte for byte. Bytes
      outside the rectangle are kept. */
  function Updated(d: Display, x: int, y: int, w: int, h: int): (fb: seq<Byte>)
    requires d.Valid() && d.ds.Some?
    ensures Kept(fb, d.fb, d.info.stride, d.ds.value, UpdateRegion(d, x, y, w, h))
    ensures d.ds.value.bytesPerPixel == 4 ==> Converted(fb, d.info.stride, d.ds.value, UpdateRegion(d, x, y, w, h))
    ensures d.ds.value.bytesPerPixel != 4 ==> Copied(fb, d.info.stride, d.ds.value, UpdateRegion(d, x, y, w, h))
  {
    var r, s := UpdateRegion(d, x, y, w, h), d.ds.value;
    MulMonoLe(r.y1, d.info.height, d.info.stride);
    BlitKeeps(d.fb, d.info.stride, s, r);
    if s.bytesPerPixel == 4 then
      BlitConverts(d.fb, d.info.stride, s, r);
      Blit(d.fb, d.info.stride, s, r)
    else
      BlitCopies(d.fb, d.info.stride, s, r);
      Blit(d.fb, d.info.stride, s, r)
  }

  /** wasm_gfx_update (corrected clipping): without a surface nothing
      happens. Otherwise the clipped rectangle is copied, the buffer is
      marked dirty and the frame counter advances by exactly one. */
  function Update(d: Display, x: int, y: int, w: int, h: int): (d': Display)
    requires d.Valid()
    ensures d'.Valid()
    ensures d.ds.None? ==> d' == d
    ensures d.ds.Some? ==>
      && d'.info == d.info.(dirty := true, frameCount := d.info.frameCount + 1)
      && d' == d.(fb := d'.fb, info := d'.info)
      && d'.fb == Updated(d, x, y, w, h)
  {
    if d.ds.None? then d
    else
      d.(fb := Updated(d, x, y, w, h),
         info := d.info.(dirty := true, frameCount := d.info.frameCount + 1))
  }

  /** The resolution limit of wasm_gfx_switch. */
  predicate Accepts(s: Surface)
  {
    s.width <= MaxWidth && s.height <= MaxHeight
  }

  /** wasm_gfx_switch: record the new surface. A NULL or oversize surface
      changes nothing else, so `fb_info` keeps describing the previous one.
      An accepted surface grows the buffer (zero-filled) when its RGBA
      image does not fit, takes over `fb_info`, marks it dirty and counts a
      frame. The full update that follows counts a second one. */
  function Switch(d: Display, surface: Option<Surface>): (d': Display)
    requires d.Valid() && (surface.Some? ==> surface.value.Valid())
    ensures d'.Valid()
    ensures d'.ds == surface
    ensures d'.allocatedSize >= d.allocatedSize && d'.info.frameCount >= d.info.frameCount
    ensures surface.None? || !Accepts(surface.value) ==> d' == d.(ds := surface)
    ensures surface.Some? && Accepts(surface.value) ==>
      var s := surface.value;
      && d'.info == FbInfo(s.width, s.height, s.width * 4, 32, s.format, true, d.info.frameCount + 2)
      && d'.allocatedSize == Max(d.allocatedSize, s.width * 4 * s.height)
    ensures surface.Some? && Accepts(surface.value) && surface.value.bytesPerPixel == 4 ==>
      Converted(d'.fb, d'.info.stride, surface.value, Rect(0, 0, surface.value.width, surface.value.height))
    ensures surface.Some? && Accepts(surface.value) && surface.value.bytesPerPixel != 4 ==>
      Copied(d'.fb, d'.info.stride, surface.value, Rect(0, 0, surface.value.width, surface.value.height))
  {
    match surface
    case None => d.(ds := None)
    case Some(s) =>
      if !Accepts(s) then d.(ds := surface)
      else
        var size := s.width * 4 * s.height;
        MulMonoLe(s.width * 4, MaxWidth * 4, s.height);
        MulMonoLe(s.height, MaxHeight, MaxWidth * 4);
        var fb := if size > d.allocatedSize then seq(size, _ => 0) else d.fb;
        var d1 := Display(surface, fb, Max(d.allocatedSize, size),
                          FbInfo(s.width, s.height, s.width * 4, 32, s.format, true, d.info.frameCount + 1));
        Update(d1, 0, 0, s.width, s.height)
  }

  /** The finding, as written: after an oversize switch `fb_info` still
      describes the default 1024x768 buffer. The next update of the full
      3841x2160 surface writes far past the 3 MiB allocation. */
  lemma OversizeSwitchThenUpdateOverruns(data: seq<Byte>)
    requires |data| == 3841 * 4 * 2160
    ensures var d := Switch(Init(true).value, Some(Surface(3841, 2160, 3841 * 4, 4, 0, data)));
            && d.ds.Some? && d.info.width == DefaultWidth
            && AsWrittenUpdateEnd(d, 0, 0, 3841, 2160) == 2159 * 4096 + 3841 * 4
            && AsWrittenUpdateEnd(d, 0, 0, 3841, 2160) > d.allocatedSize
  {
  }

  /** One event the display reacts to. */
  datatype Event =
    | AckEvent
    | UpdateEvent(x: int, y: int, w: int, h: int)
    | SwitchEvent(surface: Option<Surface>)

  predicate EventValid(e: Event)
  {
    e.SwitchEvent? && e.surface.Some? ==> e.surface.value.Valid()
  }

  /** One step of the display. */
  function Apply(d: Display, e: Event): (d': Display)
    requires d.Valid() && EventValid(e)
    ensures d'.Valid()
  {
    match e
    case AckEvent => Ack(Some(d)).value
    case UpdateEvent(x, y, w, h) => Update(d, x, y, w, h)
    case SwitchEvent(s) => Switch(d, s)
  }

  /** A run of events from left to right. */
  function Run(d: Display, es: seq<Event>): (d': Display)
    requires d.Valid() && forall i :: 0 <= i < |es| ==> EventValid(es[i])
    decreases |es|
  {
    if |es| == 0 then d else Run(Apply(d, es[0]), es[1..])
  }

  /** Over any run of events the state stays valid, the allocation never
      shrinks and the frame counter never goes back. */
  lemma {:induction false} RunIsMonotone(d: Display, es: seq<Event>)
    requires d.Valid() && forall i :: 0 <= i < |es| ==> EventValid(es[i])
    ensures Run(d, es).Valid()
    ensures Run(d, es).allocatedSize >= d.allocatedSize
    ensures Run(d, es).info.frameCount >= d.info.frameCount
    decreases |es|
  {
    if |es| > 0 {
      var d1 := Apply(d, es[0]);
      RunIsMonotone(d1, es[1..]);
    }
  }
}

=== FILE: display_input.dfy ===
/** Mouse button and wheel input of the display backend (ui/wasm-display.c,
    lines 173-217). The events queued for QEMU's input layer are returned
    as a list, with `Sync` standing for qemu_input_event_sync. The console
    is always set once the display state exists, so the guard is the state
    itself. */
module DisplayInput {
  import opened Base

  /** The InputButton values these handlers use. */
  datatype Button = Left | Middle | Right | WheelUp | WheelDown

  /** What reaches QEMU's input queue. */
  datatype InputEvent = Press(button: Button, down: bool) | Sync

  /** The switch of wasm_send_mouse_button: browser buttons 0, 1, 2 are
      left, middle, right; anything else has no mapping. */
  function MapButton(button: int): (b: Option<Button>)
    ensures b.Some? <==> 0 <= button <= 2
    ensures b.Some? ==> b.value != WheelUp && b.value != WheelDown
  {
    if button == 0 then Some(Left)
    else if button == 1 then Some(Middle)
    else if button == 2 then Some(Right)
    else None
  }

  /** The browser's number for a pointer button: the inverse of MapButton. */
  function ButtonIndex(b: Button): int
  {
    match b
    case Left => 0
    case Middle => 1
    case Right => 2
    case _ => -1
  }

  /** MapButton is one-to-one onto left, middle and right: mapping and
      numbering undo each other. */
  lemma MapButtonRoundTrip(button: int, b: Button)
    ensures MapButton(button).Some? ==> ButtonIndex(MapButton(button).value) == button
    ensures b != WheelUp && b != WheelDown ==> MapButton(ButtonIndex(b)) == Some(b)
  {
  }

  /** wasm_send_mouse_button: one press or release of the mapped button
      followed by a sync. Unknown buttons, or no display state, queue
      nothing. */
  function MouseButton(hasState: bool, button: int, down: bool): (events: seq<InputEvent>)
    ensures |events| == 0 <==> !hasState || MapButton(button).None?
    ensures |events| > 0 ==> events == [Press(MapButton(button).value, down), Sync]
  {
    if !hasState then []
    else match MapButton(button)
      case None => []
      case Some(b) => [Press(b, down), Sync]
  }

  /** wasm_send_mouse_wheel: a press and a release of WheelUp for dy > 0 or
      WheelDown for dy < 0, each followed by a sync. Nothing happens for
      dy == 0. Horizontal motion is ignored. */
  function MouseWheel(hasState: bool, dx: int, dy: int): (events: seq<InputEvent>)
    ensures !hasState || dy == 0 <==> events == []
    ensures events != [] ==>
      var b := if dy > 0 then WheelUp else WheelDown;
      events == [Press(b, true), Sync, Press(b, false), Sync]
  {
    if !hasState || dy == 0 then []
    else
      var b := if dy > 0 then WheelUp else WheelDown;
      [Press(b, true), Sync, Press(b, false), Sync]
  }

  /** The wheel does not depend on horizontal motion, only on the sign of
      vertical motion, and every press it queues is released again. */
  lemma WheelIgnoresDxAndMagnitude(hasState: bool, dx: int, dx': int, dy: int, dy': int)
    requires (dy > 0 && dy' > 0) || (dy < 0 && dy' < 0) || (dy == 0 && dy' == 0)
    ensures MouseWheel(hasState, dx, dy) == MouseWheel(hasState, dx', dy')
    ensures var e := MouseWheel(hasState, dx, dy);
            e != [] ==> e[0].button == e[2].button && e[0].down && !e[2].down
  {
  }
}

=== FILE: display_pixels.dfy ===
/** Pixel conversion of the framebuffer export (ui/wasm-display.c, lines
    257-267). A 32-bit surface pixel is read as a native `uint32_t`, which
    is little-endian on WebAssembly. It is written out as the four bytes
    R, G, B, A that a canvas expects, with the alpha byte forced to 0xFF. */
module Pixels {
  import opened Base

  /** `*(uint32_t *)p` on a little-endian machine: the four bytes at `i`,
      least significant first. */
  function Load32(data: seq<Byte>, i: nat): (p: bv32)
    requires i + 4 <= |data|
  {
    (data[i] as bv32)
    | ((data[i + 1] as bv32) << 8)
    | ((data[i + 2] as bv32) << 16)
    | ((data[i + 3] as bv32) << 24)
  }

  /** The low eight bits of a 32-bit value, as a byte. */
  function LowByte(v: bv32): (b: Byte)
  {
    (v & 0xFF) as Byte
  }

  /** The RGBA bytes written for pixel `p`: red from bits 16-23, green
      from bits 8-15, blue from bits 0-7, and an opaque alpha. */
  function ToRgba(p: bv32): (rgba: seq<Byte>)
    ensures |rgba| == 4 && rgba[3] == 0xFF
  {
    [LowByte(p >> 16), LowByte(p >> 8), LowByte(p), 0xFF]
  }

  /** Proof helpers for BgrxBecomesRgba only: each byte of a loaded pixel
      comes back out by shifting and masking. One lemma per byte keeps each
      bit-vector query small. */
  lemma LoadedBlue(b: Byte, g: Byte, r: Byte, x: Byte)
    ensures LowByte(Load32([b, g, r, x], 0)) == b
  {
  }

  lemma LoadedGreen(b: Byte, g: Byte, r: Byte, x: Byte)
    ensures LowByte(Load32([b, g, r, x], 0) >> 8) == g
  {
  }

  lemma LoadedRed(b: Byte, g: Byte, r: Byte, x: Byte)
    ensures LowByte(Load32([b, g, r, x], 0) >> 16) == r
  {
  }

  /** In memory a BGRX pixel is the bytes blue, green, red, unused. The
      conversion swaps blue and red and replaces the unused byte by an
      opaque alpha. */
  lemma BgrxBecomesRgba(b: Byte, g: Byte, r: Byte, x: Byte)
    ensures ToRgba(Load32([b, g, r, x], 0)) == [r, g, b, 0xFF]
  {
    LoadedBlue(b, g, r, x);
    LoadedGreen(b, g, r, x);
    LoadedRed(b, g, r, x);
  }

  /** The top byte of the pixel (X or A in the source format) never
      reaches the output. */
  lemma TopByteIgnored(p: bv32)
    ensures ToRgba(p) == ToRgba(p & 0x00FF_FFFF)
  {
    var q := p & 0x00FF_FFFF;
    assert LowByte(p) == LowByte(q);
    assert LowByte(p >> 8) == LowByte(q >> 8);
    assert LowByte(p >> 16) == LowByte(q >> 16);
  }
}

=== FILE: gpu_contexts.dfy ===
/** 3D contexts and command submission of the virtio-gpu hooks
    (ui/wasm-virtio-gpu.c, lines 586-707). The core keeps only a context
    table. Attach, detach and submit forward their arguments to JavaScript
    after a range check. They do not check that the context exists. */
module GpuContexts {
  import opened Base
  import opened GpuState

  /** wasm_gpu_ctx_create: allocate an active context in the slot named by
      `ctxId`. Fails, changing nothing, when the ID is out of range or the
      slot is taken. */
  function ContextCreate(g: Gpu, ctxId: nat, capsetId: nat): (r: (Gpu, int))
    requires g.WellFormed()
    ensures r.1 == -1 || r.1 == 0
    ensures r.1 == -1 <==> ctxId >= MaxContexts || g.contexts[ctxId].Some?
    ensures r.1 == -1 ==> r.0 == g
    ensures r.1 == 0 ==>
      && r.0.WellFormed()
      && r.0.contexts[ctxId] == Some(Context3D(ctxId, capsetId, true))
      && (forall j :: 0 <= j < MaxContexts && j != ctxId ==> r.0.contexts[j] == g.contexts[j])
      && r.0.contextCount == Inc32(g.contextCount)
      && r.0 == g.(contexts := r.0.contexts, contextCount := r.0.contextCount)
    ensures g.TablesConsistent() ==> r.0.TablesConsistent()
    ensures g.Consistent() ==> r.0.Consistent()
    ensures g.TablesConsistent() && r.1 == 0 ==> r.0.contextCount == g.contextCount + 1
  {
    if ctxId >= MaxContexts || g.contexts[ctxId].Some? then (g, -1)
    else
      CountUpdate(g.contexts, ctxId, Some(Context3D(ctxId, capsetId, true)), Occupied);
      (g.(contexts := g.contexts[ctxId := Some(Context3D(ctxId, capsetId, true))],
          contextCount := Inc32(g.contextCount)), 0)
  }

  /** wasm_gpu_ctx_destroy: free the context in slot `ctxId`. An
      out-of-range or empty slot is a no-op. Fences created for the context
      stay pending. */
  function ContextDestroy(g: Gpu, ctxId: nat): (g': Gpu)
    requires g.WellFormed()
    ensures g'.WellFormed()
    ensures ctxId >= MaxContexts || g.contexts[ctxId].None? ==> g' == g
    ensures ctxId < MaxContexts && g.contexts[ctxId].Some? ==>
      && g'.contexts[ctxId].None?
      && (forall j :: 0 <= j < MaxContexts && j != ctxId ==> g'.contexts[j] == g.contexts[j])
      && g'.fences == g.fences
      && g' == g.(contexts := g'.contexts, contextCount := g'.contextCount)
    ensures g.TablesConsistent() ==> g'.TablesConsistent()
    ensures g.Consistent() ==> g'.Consistent()
    ensures g.TablesConsistent() && ctxId < MaxContexts && g.contexts[ctxId].Some? ==>
      g'.contextCount == g.contextCount - 1
  {
    if ctxId >= MaxContexts || g.contexts[ctxId].None? then g
    else
      CountUpdate(g.contexts, ctxId, None, Occupied);
      CountPositive(g.contexts, ctxId, Occupied);
      g.(contexts := g.contexts[ctxId := None], contextCount := Dec32(g.contextCount))
  }

  /** Creating a context and destroying it again restores the state. */
  lemma ContextCreateThenDestroyRestores(g: Gpu, ctxId: nat, capsetId: nat)
    requires g.Consistent() && ctxId < MaxContexts && g.contexts[ctxId].None?
    ensures ContextCreate(g, ctxId, capsetId).1 == 0
    ensures ContextDestroy(ContextCreate(g, ctxId, capsetId).0, ctxId) == g
  {
    var d := ContextDestroy(ContextCreate(g, ctxId, capsetId).0, ctxId);
    assert d.contexts == g.contexts;
  }

  /** wasm_gpu_ctx_attach_resource: 0 exactly when both IDs are in range.
      Neither the context nor the resource has to exist, and the state does
      not change. */
  function AttachResource(g: Gpu, ctxId: nat, resourceId: nat): (status: int)
    requires g.WellFormed()
    ensures status == 0 <==> ctxId < MaxContexts && resourceId < MaxResources
    ensures status == 0 || status == -1
  {
    if ctxId >= MaxContexts || resourceId >= MaxResources then -1 else 0
  }

  /** wasm_gpu_ctx_detach_resource returns nothing; it forwards the pair to
      JavaScript exactly when attach would have succeeded. */
  function DetachResource(g: Gpu, ctxId: nat, resourceId: nat): (forwarded: bool)
    requires g.WellFormed()
    ensures forwarded <==> AttachResource(g, ctxId, resourceId) == 0
  {
    ctxId < MaxContexts && resourceId < MaxResources
  }

  /** The submission JavaScript receives: the context and a copy of the command
      bytes. */
  datatype Submission = Submission(ctxId: nat, commands: seq<Byte>)

  /** wasm_gpu_submit_3d: with `ctxId` in range and a non-null command
      buffer, count one more submitted command buffer and forward a copy.
      Fails, changing nothing, otherwise. `cmd` is the buffer of
      `cmd_size` bytes, or None for NULL. */
  function Submit(g: Gpu, ctxId: nat, cmd: Option<seq<Byte>>): (r: (Gpu, int, Option<Submission>))
    requires g.WellFormed()
    ensures r.1 == -1 || r.1 == 0
    ensures r.1 == -1 <==> ctxId >= MaxContexts || cmd.None?
    ensures r.1 == -1 ==> r.0 == g && r.2.None?
    ensures r.1 == 0 ==>
      && r.2 == Some(Submission(ctxId, cmd.value))
      && r.0 == g.(stats := g.stats.(commandsSubmitted := g.stats.commandsSubmitted + 1))
  {
    if ctxId >= MaxContexts || cmd.None? then (g, -1, None)
    else (g.(stats := g.stats.(commandsSubmitted := g.stats.commandsSubmitted + 1)), 0,
          Some(Submission(ctxId, cmd.value)))
  }

  /** Submission goes through for an in-range context that was never
      created, or was destroyed: the table is not consulted. */
  lemma SubmitIgnoresContextTable(g: Gpu, ctxId: nat, cmd: seq<Byte>)
    requires g.Consistent() && ctxId < MaxContexts && g.contexts[ctxId].Some?
    ensures var d := ContextDestroy(g, ctxId);
            d.contexts[ctxId].None? && Submit(d, ctxId, Some(cmd)).1 == 0
  {
  }
}

=== FILE: gpu_fences.dfy ===
/** Fences and statistics of the virtio-gpu hooks (ui/wasm-virtio-gpu.c,
    lines 709-774 and 853-870).

    A fence slot is free exactly when its ID is 0. Creating a fence takes
    the lowest free slot. JavaScript signals a fence by ID. Polling a
    signalled fence reaps it: its ID goes back to 0, and `fence_count` and
    `pending_fences` drop by one. An ID that no slot holds counts as
    signalled. The source never rejects fence ID 0, and these operations
    reproduce what it then does; the invariant lemmas take `fenceId != 0`
    as a hypothesis. */
module GpuFences {
  import opened Base
  import opened GpuState

  /** The lowest index from `from` on whose slot holds fence `id`: the
      search loop shared by all three fence functions. */
  function FirstSlot(fences: seq<FenceSlot>, id: nat, from: nat): (r: Option<nat>)
    requires from <= |fences|
    ensures r.Some? ==> from <= r.value < |fences| && fences[r.value].fenceId == id
    ensures r.Some? ==> forall j :: from <= j < r.value ==> fences[j].fenceId != id
    ensures r.None? <==> forall j :: from <= j < |fences| ==> fences[j].fenceId != id
    decreases |fences| - from
  {
    if from == |fences| then None
    else if fences[from].fenceId == id then Some(from)
    else FirstSlot(fences, id, from + 1)
  }

  /** The search finds the one slot whose ID matches when no earlier slot
      matches. */
  lemma FirstSlotIs(fences: seq<FenceSlot>, id: nat, i: nat)
    requires i < |fences| && fences[i].fenceId == id
    requires forall j :: 0 <= j < i ==> fences[j].fenceId != id
    ensures FirstSlot(fences, id, 0) == Some(i)
  {
  }

  /** wasm_gpu_create_fence: store the fence in the lowest free slot, mark
      it unsignalled, and bump `fence_count` and `pending_fences`. Fails,
      changing nothing, when every slot is taken. Duplicate IDs are not
      checked. */
  function CreateFence(g: Gpu, ctxId: nat, fenceId: nat): (r: (Gpu, int))
    requires g.WellFormed()
    ensures r.1 == -1 || r.1 == 0
    ensures r.1 == -1 <==> forall i :: 0 <= i < MaxFences ==> InUse(g.fences[i])
    ensures r.1 == -1 ==> r.0 == g
    ensures r.1 == 0 ==>
      var i := FirstSlot(g.fences, 0, 0).value;
      && r.0.WellFormed()
      && !InUse(g.fences[i])
      && (forall j :: 0 <= j < i ==> InUse(g.fences[j]))
      && r.0.fences[i] == FenceSlot(fenceId, ctxId, false)
      && (forall j :: 0 <= j < MaxFences && j != i ==> r.0.fences[j] == g.fences[j])
      && r.0.fenceCount == Inc32(g.fenceCount)
      && r.0.stats == g.stats.(pendingFences := Inc32(g.stats.pendingFences))
      && r.0 == g.(fences := r.0.fences, fenceCount := r.0.fenceCount, stats := r.0.stats)
    ensures g.Consistent() && fenceId != 0 ==> r.0.Consistent()
  {
    match FirstSlot(g.fences, 0, 0)
    case None => (g, -1)
    case Some(i) =>
      CountUpdate(g.fences, i, FenceSlot(fenceId, ctxId, false), InUse);
      (g.(fences := g.fences[i := FenceSlot(fenceId, ctxId, false)],
          fenceCount := Inc32(g.fenceCount),
          stats := g.stats.(pendingFences := Inc32(g.stats.pendingFences))), 0)
  }

  /** wasm_gpu_fence_is_signaled: a destructive poll. For the first slot
      holding `fenceId`, a signalled fence is reaped (ID back to 0, both
      counters down by one) and reported true, and an unsignalled one is
      reported false. An ID no slot holds is reported true. */
  function FenceIsSignaled(g: Gpu, fenceId: nat): (r: (Gpu, bool))
    requires g.WellFormed()
    ensures r.0.WellFormed()
    ensures FirstSlot(g.fences, fenceId, 0).None? ==> r == (g, true)
    ensures FirstSlot(g.fences, fenceId, 0).Some? ==>
      var i := FirstSlot(g.fences, fenceId, 0).value;
      && g.fences[i].fenceId == fenceId
      && r.1 == g.fences[i].signaled
      && (!r.1 ==> r.0 == g)
      && (r.1 ==>
            && r.0.fences == g.fences[i := g.fences[i].(fenceId := 0)]
            && r.0.fenceCount == Dec32(g.fenceCount)
            && r.0.stats == g.stats.(pendingFences := Dec32(g.stats.pendingFences))
            && r.0 == g.(fences := r.0.fences, fenceCount := r.0.fenceCount, stats := r.0.stats))
    ensures g.Consistent() && fenceId != 0 ==> r.0.Consistent()
  {
    match FirstSlot(g.fences, fenceId, 0)
    case None => (g, true)
    case Some(i) =>
      if !g.fences[i].signaled then (g, false)
      else
        var slot := g.fences[i].(fenceId := 0);
        CountUpdate(g.fences, i, slot, InUse);
        (g.(fences := g.fences[i := slot],
            fenceCount := Dec32(g.fenceCount),
            stats := g.stats.(pendingFences := Dec32(g.stats.pendingFences))), true)
  }

  /** wasm_gpu_signal_fence: mark the first slot holding `fenceId` as
      signalled; an unknown ID changes nothing. */
  function SignalFence(g: Gpu, fenceId: nat): (g': Gpu)
    requires g.WellFormed()
    ensures g'.WellFormed()
    ensures FirstSlot(g.fences, fenceId, 0).None? ==> g' == g
    ensures FirstSlot(g.fences, fenceId, 0).Some? ==>
      var i := FirstSlot(g.fences, fenceId, 0).value;
      g' == g.(fences := g.fences[i := g.fences[i].(signaled := true)])
    ensures g.Consistent() ==> g'.Consistent()
  {
    match FirstSlot(g.fences, fenceId, 0)
    case None => g
    case Some(i) =>
      CountUpdate(g.fences, i, g.fences[i].(signaled := true), InUse);
      g.(fences := g.fences[i := g.fences[i].(signaled := true)])
  }

  /** A fence ID that some slot holds. */
  predicate Known(g: Gpu, fenceId: nat)
    requires g.WellFormed()
  {
    exists i :: 0 <= i < MaxFences && g.fences[i].fenceId == fenceId
  }

  /** The life of one fence: after creation it polls false until it is
      signalled, and then the first poll reaps it and reports true. The
      counters are back where they started, and a later poll of the same
      ID reports true again because the ID is unknown. */
  lemma {:induction false} FenceLifecycle(g: Gpu, ctxId: nat, fenceId: nat)
    requires g.Consistent() && fenceId != 0 && !Known(g, fenceId)
    requires g.fenceCount < MaxFences
    ensures var c := CreateFence(g, ctxId, fenceId);
            c.1 == 0 && Known(c.0, fenceId) && FenceIsSignaled(c.0, fenceId) == (c.0, false)
    ensures var c := CreateFence(g, ctxId, fenceId).0;
            var p := FenceIsSignaled(SignalFence(c, fenceId), fenceId);
            && p.1
            && p.0.fenceCount == g.fenceCount
            && p.0.stats == g.stats
            && !Known(p.0, fenceId)
            && FenceIsSignaled(p.0, fenceId) == (p.0, true)
  {
    if forall i :: 0 <= i < MaxFences ==> InUse(g.fences[i]) {
      CountAll(g.fences, InUse);
      assert false;
    }
    var c := CreateFence(g, ctxId, fenceId);
    var i := FirstSlot(g.fences, 0, 0).value;
    assert c.0.fences[i].fenceId == fenceId;
    FirstSlotIs(c.0.fences, fenceId, i);
    var s := SignalFence(c.0, fenceId);
    assert s.fences[i] == FenceSlot(fenceId, ctxId, true);
    FirstSlotIs(s.fences, fenceId, i);
    var p := FenceIsSignaled(s, fenceId);
    assert p.0.fences[i].fenceId == 0;
    assert !Known(p.0, fenceId) by {
      forall j | 0 <= j < MaxFences
        ensures p.0.fences[j].fenceId != fenceId
      {
        if j != i {
          assert p.0.fences[j] == g.fences[j];
        }
      }
    }
  }

  /** With fewer than MaxFences pending, creation always finds a slot; with
      all of them pending it always fails. */
  lemma {:induction false} CreateFenceCapacity(g: Gpu, ctxId: nat, fenceId: nat)
    requires g.Consistent()
    ensures CreateFence(g, ctxId, fenceId).1 == 0 <==> g.fenceCount < MaxFences
  {
    if g.fenceCount < MaxFences {
      if forall i :: 0 <= i < MaxFences ==> InUse(g.fences[i]) {
        CountAll(g.fences, InUse);
        assert false;
      }
    } else {
      CountFull(g.fences, InUse);
    }
  }

  /** Fence ID 0 is the free-slot marker, and creating it is not rejected.
      The fence lands in a slot that still reads as free, but both counters
      go up, so `fence_count` no longer matches the slots in use. */
  lemma ZeroFenceIsMiscounted(g: Gpu, ctxId: nat)
    requires g.Consistent() && g.fenceCount < MaxFences
    ensures var c := CreateFence(g, ctxId, 0);
            c.1 == 0 && c.0.fences == g.fences[FirstSlot(g.fences, 0, 0).value := FenceSlot(0, ctxId, false)]
            && c.0.fenceCount == g.fenceCount + 1 && !c.0.Consistent()
  {
    CreateFenceCapacity(g, ctxId, 0);
    var i := FirstSlot(g.fences, 0, 0).value;
    CountUpdate(g.fences, i, FenceSlot(0, ctxId, false), InUse);
  }

  /** A reaped slot keeps `signaled == true` with ID 0. Polling fence ID 0
      then finds such a free slot and "reaps" it again: the slots do not
      change, but both counters drop, so `fence_count` no longer matches
      the slots in use. */
  lemma ZeroPollReapsFreeSlot(g: Gpu, i: nat)
    requires g.Consistent() && i < MaxFences
    requires g.fences[i].fenceId == 0 && g.fences[i].signaled
    requires forall j :: 0 <= j < i ==> g.fences[j].fenceId != 0
    ensures var p := FenceIsSignaled(g, 0);
            p.1 && p.0.fences == g.fences && p.0.fenceCount == Dec32(g.fenceCount) && !p.0.Consistent()
  {
    FirstSlotIs(g.fences, 0, i);
    assert g.fences[i := g.fences[i].(fenceId := 0)] == g.fences;
  }

  /** wasm_gpu_reset_stats AS WRITTEN: zero every statistic except
      `texture_memory` and `resources_allocated`, including
      `pending_fences`. */
  function ResetStatsAsWritten(g: Gpu): (g': Gpu)
    requires g.WellFormed()
    ensures g'.WellFormed()
    ensures g'.stats.pendingFences == 0 && g'.stats.framesRendered == 0
    ensures g'.stats.bytesUploaded == 0 && g'.stats.bytesDownloaded == 0
    ensures g'.stats.commandsSubmitted == 0
    ensures g'.stats.textureMemory == g.stats.textureMemory
    ensures g'.stats.resourcesAllocated == g.stats.resourcesAllocated
    ensures g' == g.(stats := g'.stats)
  {
    g.(stats := NoStats.(textureMemory := g.stats.textureMemory,
                         resourcesAllocated := g.stats.resourcesAllocated))
  }

  /** The reset zeroes `pending_fences` while fences stay pending. Reaping
      one of them afterwards takes the counter from 0 to 2^32 - 1. */
  lemma ResetStatsAsWrittenWrapsPending(g: Gpu, fenceId: nat, i: nat)
    requires g.Consistent() && fenceId != 0
    requires i < MaxFences && g.fences[i].fenceId == fenceId && g.fences[i].signaled
    requires forall j :: 0 <= j < i ==> g.fences[j].fenceId != fenceId
    ensures var p := FenceIsSignaled(ResetStatsAsWritten(g), fenceId);
            p.1 && p.0.stats.pendingFences == U32 - 1 && !p.0.Consistent()
  {
    FirstSlotIs(g.fences, fenceId, i);
  }

  /** wasm_gpu_reset_stats as evidently intended: statistics that measure
      activity are zeroed, while `texture_memory`, `resources_allocated`
      and `pending_fences`, which describe live state, are kept. */
  function ResetStats(g: Gpu): (g': Gpu)
    requires g.WellFormed()
    ensures g'.WellFormed()
    ensures g'.stats.framesRendered == 0 && g'.stats.bytesUploaded == 0
    ensures g'.stats.bytesDownloaded == 0 && g'.stats.commandsSubmitted == 0
    ensures g'.stats.textureMemory == g.stats.textureMemory
    ensures g'.stats.resourcesAllocated == g.stats.resourcesAllocated
    ensures g'.stats.pendingFences == g.stats.pendingFences
    ensures g' == g.(stats := g'.stats)
    ensures g.Consistent() ==> g'.Consistent()
  {
    g.(stats := NoStats.(textureMemory := g.stats.textureMemory,
                         resourcesAllocated := g.stats.resourcesAllocated,
                         pendingFences := g.stats.pendingFences))
  }

  /** The two resets agree except on `pending_fences`, and they agree fully
      when no fence is pending. */
  lemma ResetStatsDiffersOnlyInPending(g: Gpu)
    requires g.WellFormed()
    ensures ResetStats(g) == ResetStatsAsWritten(g).(stats :=
              ResetStatsAsWritten(g).stats.(pendingFences := g.stats.pendingFences))
    ensures g.stats.pendingFences == 0 ==> ResetStats(g) == ResetStatsAsWritten(g)
  {
  }

  /** After the intended reset, the fence operations keep the counters in
      step with the fence table: creating, signalling and reaping a fence
      each preserve the invariant. A fence that is new and finds a free
      slot completes its whole life, and `pending_fences` ends where it was
      before the reset. */
  lemma {:induction false} ResetStatsThenReapStaysConsistent(g: Gpu, ctxId: nat, fenceId: nat)
    requires g.Consistent() && fenceId != 0
    ensures var r := ResetStats(g);
            var c := CreateFence(r, ctxId, fenceId).0;
            var s := SignalFence(c, fenceId);
            && r.Consistent() && c.Consistent() && s.Consistent()
            && FenceIsSignaled(s, fenceId).0.Consistent()
    ensures !Known(g, fenceId) && g.fenceCount < MaxFences ==>
            var c := CreateFence(ResetStats(g), ctxId, fenceId).0;
            var p := FenceIsSignaled(SignalFence(c, fenceId), fenceId);
            p.1 && p.0.stats.pendingFences == g.stats.pendingFences
  {
    var r := ResetStats(g);
    if !Known(g, fenceId) && g.fenceCount < MaxFences {
      assert !Known(r, fenceId) by {
        assert r.fences == g.fences;
      }
      FenceLifecycle(r, ctxId, fenceId);
    }
  }
}

=== FILE: gpu_lifecycle.dfy ===
/** Start-up and shut-down of the virtio-gpu hooks (ui/wasm-virtio-gpu.c,
    lines 231-331), in the Emscripten build. Browser probing is a set of
    parameters: the backend JavaScript detects, whether WebGPU
    compatibility mode is available, the feature mask and the maximum
    texture size. */
module GpuLifecycle {
  import opened Base
  import opened GpuState
  import GpuResources
  import GpuContexts

  /** The backend wasm_gpu_init settles on. A WebGPU request the browser
      cannot meet natively becomes WebGPU compatibility mode when that is
      available, and the detected backend otherwise. Any other request is
      honoured when it is not NONE and not above what was detected.
      Everything else falls back to the detected backend. So the result is
      the preferred one, the detected one, or compatibility mode, and it is
      above what was detected only as compatibility mode requested through
      WebGPU. */
  function SelectBackend(preferred: Backend, detected: Backend, compat: bool): (b: Backend)
    ensures b == preferred || b == detected || b == WebGPUCompat
    ensures preferred != BackendNone && preferred.Ord() <= detected.Ord() ==> b == preferred
    ensures b.Ord() > detected.Ord() ==> b == WebGPUCompat && preferred == WebGPU && compat
    ensures preferred == BackendNone ==> b == detected
  {
    if preferred == WebGPU && detected.Ord() < WebGPU.Ord() then
      (if compat then WebGPUCompat else detected)
    else if preferred != BackendNone && preferred.Ord() <= detected.Ord() then preferred
    else detected
  }

  /** The capabilities wasm_gpu_init fills in on top of the zeroed record:
      fixed limits for every backend, and virgl, blob and compute limits
      only for the WebGPU backends. */
  function InitCaps(backend: Backend, features: nat, maxTextureSize: nat): (c: Caps)
    ensures c.backend == backend && c.features == features && c.maxTextureSize == maxTextureSize
    ensures c.maxTextureLayers == 256
    ensures c.maxBufferSize == 256 * 1024 * 1024 && c.maxUniformBufferSize == 64 * 1024
    ensures c.supportsVirgl <==> backend.Ord() >= WebGPU.Ord()
    ensures c.supportsBlob == c.supportsVirgl
    ensures |c.maxComputeWorkgroupSize| == 3 && |c.maxComputeWorkgroups| == 3
    ensures !c.supportsVirgl ==> c.maxComputeWorkgroupSize == [0, 0, 0] && c.maxComputeWorkgroups == [0, 0, 0]
    ensures c.supportsVirgl ==>
      c.maxComputeWorkgroupSize == [256, 256, 64] && c.maxComputeWorkgroups == [65535, 65535, 65535]
  {
    var modern := backend.Ord() >= WebGPU.Ord();
    Caps(backend, features, maxTextureSize, 256, 256 * 1024 * 1024, 64 * 1024,
         if modern then [256, 256, 64] else [0, 0, 0],
         if modern then [65535, 65535, 65535] else [0, 0, 0],
         modern, modern)
  }

  /** wasm_gpu_init: an existing state is returned untouched. Otherwise a
      zeroed state is allocated and given the probed capabilities. The
      returned state is the global afterwards, and the caller sees its
      capabilities. An existing state is returned whatever it holds, even
      one a statistics reset has put out of step with its fences. */
  function Init(global: Option<Gpu>, preferred: Backend, detected: Backend, compat: bool,
                features: nat, maxTextureSize: nat): (g: Gpu)
    ensures global.Some? ==> g == global.value
    ensures global.None? ==>
      && g.Consistent()
      && g.caps == InitCaps(SelectBackend(preferred, detected, compat), features, maxTextureSize)
      && g.stats == NoStats
      && (forall id :: 0 <= id < MaxResources ==> !g.Live(id))
      && g.contextCount == 0 && g.fenceCount == 0
  {
    if global.Some? then global.value
    else Blank(InitCaps(SelectBackend(preferred, detected, compat), features, maxTextureSize))
  }

  /** A second initialisation, whatever the browser now reports, changes
      nothing. */
  lemma InitIsIdempotent(preferred: Backend, detected: Backend, compat: bool, features: nat, maxTex: nat,
                         preferred': Backend, detected': Backend, compat': bool, features': nat, maxTex': nat)
    ensures var g := Init(None, preferred, detected, compat, features, maxTex);
            Init(Some(g), preferred', detected', compat', features', maxTex') == g
  {
  }

  /** wasm_gpu_shutdown, up to the final free: destroy every live resource
      in ascending ID order, then every live context. Returns the drained
      state and the IDs destroyed, in the order destroyed. Fences, scanouts
      and statistics are not touched, so only the table part of the
      invariant is needed, and the fence part is kept when it held; the
      global then becomes NULL. */
  method Shutdown(g: Gpu) returns (drained: Gpu, resources: seq<nat>, contexts: seq<nat>)
    requires g.TablesConsistent()
    ensures drained.TablesConsistent()
    ensures g.Consistent() ==> drained.Consistent()
    ensures forall id :: 0 <= id < MaxResources ==> !drained.Live(id)
    ensures forall c :: 0 <= c < MaxContexts ==> drained.contexts[c].None?
    ensures drained.resourceCount == 0 && drained.contextCount == 0
    ensures drained == g.(resources := drained.resources, resourceCount := 0,
                          contexts := drained.contexts, contextCount := 0)
    ensures forall id: nat :: id in resources <==> g.Live(id)
    ensures forall k, l :: 0 <= k < l < |resources| ==> resources[k] < resources[l]
    ensures forall c: nat :: c in contexts <==> c < MaxContexts && g.contexts[c].Some?
    ensures forall k, l :: 0 <= k < l < |contexts| ==> contexts[k] < contexts[l]
  {
    var s := g;
    resources := [];
    var i := 0;
    while i < MaxResources
      invariant 0 <= i <= MaxResources
      invariant s.TablesConsistent()
      invariant forall j :: 0 <= j < i ==> s.resources[j].None?
      invariant forall j :: i <= j < MaxResources ==> s.resources[j] == g.resources[j]
      invariant s == g.(resources := s.resources, resourceCount := s.resourceCount)
      invariant forall k :: 0 <= k < |resources| ==> resources[k] < i
      invariant forall id: nat :: id in resources <==> id < i && g.Live(id)
      invariant forall k, l :: 0 <= k < l < |resources| ==> resources[k] < resources[l]
    {
      if s.resources[i].Some? {
        s := GpuResources.Destroy(s, i);
        resources := resources + [i];
      }
      i := i + 1;
    }
    CountNone(s.resources, Occupied);
    contexts := [];
    var c := 0;
    while c < MaxContexts
      invariant 0 <= c <= MaxContexts
      invariant s.TablesConsistent()
      invariant forall j :: 0 <= j < MaxResources ==> s.resources[j].None?
      invariant forall j :: 0 <= j < c ==> s.contexts[j].None?
      invariant forall j :: c <= j < MaxContexts ==> s.contexts[j] == g.contexts[j]
      invariant s == g.(resources := s.resources, resourceCount := 0,
                        contexts := s.contexts, contextCount := s.contextCount)
      invariant forall k :: 0 <= k < |contexts| ==> contexts[k] < c
      invariant forall x: nat :: x in contexts <==> x < c && g.contexts[x].Some?
      invariant forall k, l :: 0 <= k < l < |contexts| ==> contexts[k] < contexts[l]
    {
      if s.contexts[c].Some? {
        s := GpuContexts.ContextDestroy(s, c);
        contexts := contexts + [c];
      }
      c := c + 1;
    }
    CountNone(s.contexts, Occupied);
    drained := s;
  }
}

=== FILE: gpu_resources.dfy ===
/** Resource, scanout, cursor and blob bookkeeping of the virtio-gpu hooks
    (ui/wasm-virtio-gpu.c, lines 348-566 and 776-828). Each operation is a
    pure transition of the `Gpu` state. Its status is the C return value:
    0 for success, -1 for failure. Calls into JavaScript are not modelled,
    except where their arguments are the observable result: the scanouts a
    flush notifies, the byte range an upload hands over, and the image a
    cursor update passes on. */
module GpuResources {
  import opened Base
  import opened GpuState

  /** Overwriting a live slot with a record for the same ID keeps the
      state consistent: occupancy does not change. */
  lemma ReplaceLive(g: Gpu, id: nat, res: Resource)
    requires g.WellFormed() && g.Live(id)
    requires res.resourceId == g.resources[id].value.resourceId && res.size < U64
    ensures g.TablesConsistent() ==> g.(resources := g.resources[id := Some(res)]).TablesConsistent()
    ensures g.Consistent() ==> g.(resources := g.resources[id := Some(res)]).Consistent()
  {
    CountUpdate(g.resources, id, Some(res), Occupied);
  }

  /** wasm_gpu_resource_create: copy the caller's record into the slot named
      by its ID. Fails, changing nothing, when the ID is out of range or the
      slot is taken. On success the live count and `resources_allocated`
      grow by one and nothing else changes. */
  function Create(g: Gpu, res: Resource): (r: (Gpu, int))
    requires g.WellFormed() && res.size < U64
    ensures r.1 == -1 || r.1 == 0
    ensures r.1 == -1 <==> res.resourceId >= MaxResources || g.resources[res.resourceId].Some?
    ensures r.1 == -1 ==> r.0 == g
    ensures r.1 == 0 ==>
      var g', id := r.0, res.resourceId;
      && g'.WellFormed()
      && g'.resources[id] == Some(res)
      && (forall j :: 0 <= j < MaxResources && j != id ==> g'.resources[j] == g.resources[j])
      && g'.stats == g.stats.(resourcesAllocated := g.stats.resourcesAllocated + 1)
      && g'.resourceCount == Inc32(g.resourceCount)
      && g' == g.(resources := g'.resources, resourceCount := g'.resourceCount, stats := g'.stats)
    ensures g.TablesConsistent() ==> r.0.TablesConsistent()
    ensures g.Consistent() ==> r.0.Consistent()
    ensures g.TablesConsistent() && r.1 == 0 ==> r.0.resourceCount == g.resourceCount + 1
  {
    var id := res.resourceId;
    if id >= MaxResources || g.resources[id].Some? then (g, -1)
    else
      CountUpdate(g.resources, id, Some(res), Occupied);
      var count := Inc32(g.resourceCount);
      (g.(resources := g.resources[id := Some(res)],
          resourceCount := count,
          stats := g.stats.(resourcesAllocated := g.stats.resourcesAllocated + 1)), 0)
  }

  /** wasm_gpu_resource_destroy: empty the slot and drop the live count. An
      out-of-range or empty ID is a no-op. The backing buffer is released
      with the record; `texture_memory` is left as it is. */
  function Destroy(g: Gpu, id: nat): (g': Gpu)
    requires g.WellFormed()
    ensures g'.WellFormed()
    ensures !g.Live(id) ==> g' == g
    ensures g.Live(id) ==>
      && !g'.Live(id)
      && (forall j :: 0 <= j < MaxResources && j != id ==> g'.resources[j] == g.resources[j])
      && g' == g.(resources := g'.resources, resourceCount := g'.resourceCount)
    ensures g.TablesConsistent() ==> g'.TablesConsistent()
    ensures g.Consistent() ==> g'.Consistent()
    ensures g.TablesConsistent() && g.Live(id) ==> g'.resourceCount == g.resourceCount - 1
  {
    if !g.Live(id) then g
    else
      CountUpdate(g.resources, id, None, Occupied);
      CountPositive(g.resources, id, Occupied);
      g.(resources := g.resources[id := None], resourceCount := Dec32(g.resourceCount))
  }

  /** Create followed by destroy of the same ID gives back the original
      tables and live count; only `resources_allocated` remembers it. */
  lemma CreateThenDestroyRestores(g: Gpu, res: Resource)
    requires g.Consistent() && res.size < U64
    requires res.resourceId < MaxResources && !g.Live(res.resourceId)
    ensures var c := Create(g, res);
            c.1 == 0 && !Destroy(c.0, res.resourceId).Live(res.resourceId)
    ensures Destroy(Create(g, res).0, res.resourceId)
            == g.(stats := g.stats.(resourcesAllocated := g.stats.resourcesAllocated + 1))
  {
    var c := Create(g, res).0;
    var d := Destroy(c, res.resourceId);
    assert d.resources == g.resources;
  }

  /** wasm_gpu_resource_attach_backing: on a live resource record the host
      pointer and size (replacing any earlier ones), mark it dirty, and add
      the size to `texture_memory`. Fails, changing nothing, otherwise. The
      pointer may be NULL; it is stored as given. */
  function AttachBacking(g: Gpu, id: nat, data: Option<Ptr>, size: nat): (r: (Gpu, int))
    requires g.WellFormed() && size < U32
    ensures r.1 == -1 || r.1 == 0
    ensures r.1 == -1 <==> !g.Live(id)
    ensures r.1 == -1 ==> r.0 == g
    ensures r.1 == 0 ==>
      var g', old_ := r.0, g.resources[id].value;
      && g'.WellFormed()
      && g'.resources[id] == Some(old_.(hostPtr := data, size := size, isDirty := true))
      && (forall j :: 0 <= j < MaxResources && j != id ==> g'.resources[j] == g.resources[j])
      && g'.stats == g.stats.(textureMemory := Add64(g.stats.textureMemory, size))
      && g' == g.(resources := g'.resources, stats := g'.stats)
    ensures g.TablesConsistent() ==> r.0.TablesConsistent()
    ensures g.Consistent() ==> r.0.Consistent()
  {
    if !g.Live(id) then (g, -1)
    else
      var res := g.resources[id].value.(hostPtr := data, size := size, isDirty := true);
      ReplaceLive(g, id, res);
      (g.(resources := g.resources[id := Some(res)],
          stats := g.stats.(textureMemory := Add64(g.stats.textureMemory, size))), 0)
  }

  /** wasm_gpu_resource_detach_backing: on a live resource subtract its size
      from `texture_memory` when that size is positive, then clear the
      pointer and the size. A non-live ID is a no-op. */
  function DetachBacking(g: Gpu, id: nat): (g': Gpu)
    requires g.WellFormed()
    ensures g'.WellFormed()
    ensures !g.Live(id) ==> g' == g
    ensures g.Live(id) ==>
      var old_ := g.resources[id].value;
      && g'.resources[id] == Some(old_.(hostPtr := None, size := 0))
      && (forall j :: 0 <= j < MaxResources && j != id ==> g'.resources[j] == g.resources[j])
      && g'.stats.textureMemory
         == (if old_.size > 0 then Sub64(g.stats.textureMemory, old_.size) else g.stats.textureMemory)
      && g' == g.(resources := g'.resources, stats := g'.stats.(textureMemory := g'.stats.textureMemory))
      && g'.stats == g.stats.(textureMemory := g'.stats.textureMemory)
    ensures g.TablesConsistent() ==> g'.TablesConsistent()
    ensures g.Consistent() ==> g'.Consistent()
  {
    if !g.Live(id) then g
    else
      var old_ := g.resources[id].value;
      var res := old_.(hostPtr := None, size := 0);
      ReplaceLive(g, id, res);
      var mem := if old_.size > 0 then Sub64(g.stats.textureMemory, old_.size) else g.stats.textureMemory;
      g.(resources := g.resources[id := Some(res)], stats := g.stats.(textureMemory := mem))
  }

  /** The arguments js_upload_texture receives: where the source bytes start
      (`offset` into the backing) and how many it reads. */
  datatype Upload = Upload(resourceId: nat, x: nat, y: nat, width: nat, height: nat, offset: nat, bytes: nat)

  /** `width * height * 4` on 32-bit unsigned operands, as the transfer
      functions compute it. */
  function RectBytes(width: nat, height: nat): (n: nat)
    ensures n < U32
    ensures width * height * 4 < U32 ==> n == width * height * 4
  {
    (width * height * 4) % U32
  }

  /** wasm_gpu_transfer_to_host: requires a live resource with a non-null
      host pointer. The upload covers `RectBytes(width, height)` bytes from
      `offset` and is NOT checked against the backing size. Success clears
      the dirty flag and adds the byte count to `bytes_uploaded`. */
  function TransferToHost(g: Gpu, id: nat, x: nat, y: nat, width: nat, height: nat, offset: nat)
    : (r: (Gpu, int, Option<Upload>))
    requires g.WellFormed()
    ensures r.1 == -1 || r.1 == 0
    ensures r.1 == -1 <==> !(g.Live(id) && g.resources[id].value.hostPtr.Some?)
    ensures r.1 == -1 ==> r.0 == g && r.2 == None
    ensures r.1 == 0 ==>
      var g', bytes := r.0, RectBytes(width, height);
      && g'.WellFormed()
      && r.2 == Some(Upload(id, x, y, width, height, offset, bytes))
      && g'.resources[id] == Some(g.resources[id].value.(isDirty := false))
      && (forall j :: 0 <= j < MaxResources && j != id ==> g'.resources[j] == g.resources[j])
      && g'.stats == g.stats.(bytesUploaded := g.stats.bytesUploaded + bytes)
      && g' == g.(resources := g'.resources, stats := g'.stats)
    ensures g.TablesConsistent() ==> r.0.TablesConsistent()
    ensures g.Consistent() ==> r.0.Consistent()
  {
    if !g.Live(id) || g.resources[id].value.hostPtr.None? then (g, -1, None)
    else
      var bytes := RectBytes(width, height);
      var res := g.resources[id].value.(isDirty := false);
      ReplaceLive(g, id, res);
      (g.(resources := g.resources[id := Some(res)],
          stats := g.stats.(bytesUploaded := g.stats.bytesUploaded + bytes)),
       0, Some(Upload(id, x, y, width, height, offset, bytes)))
  }

  /** wasm_gpu_transfer_from_host: the same guard as the upload; success
      only adds `RectBytes(width, height)` to `bytes_downloaded`. */
  function TransferFromHost(g: Gpu, id: nat, x: nat, y: nat, width: nat, height: nat, offset: nat)
    : (r: (Gpu, int))
    requires g.WellFormed()
    ensures r.1 == -1 || r.1 == 0
    ensures r.1 == -1 <==> !(g.Live(id) && g.resources[id].value.hostPtr.Some?)
    ensures r.1 == -1 ==> r.0 == g
    ensures r.1 == 0 ==>
      r.0 == g.(stats := g.stats.(bytesDownloaded := g.stats.bytesDownloaded + RectBytes(width, height)))
  {
    if !g.Live(id) || g.resources[id].value.hostPtr.None? then (g, -1)
    else (g.(stats := g.stats.(bytesDownloaded := g.stats.bytesDownloaded + RectBytes(width, height))), 0)
  }

  /** Indices from `from` on of the enabled scanouts bound to `id`, in
      increasing order. */
  function BoundScanouts(s: seq<Scanout>, id: nat, from: nat): (r: seq<nat>)
    requires from <= |s|
    ensures forall k :: 0 <= k < |r| ==>
      from <= r[k] < |s| && s[r[k]].enabled && s[r[k]].resourceId == id
    ensures forall i :: from <= i < |s| && s[i].enabled && s[i].resourceId == id ==> i in r
    ensures forall k, l :: 0 <= k < l < |r| ==> r[k] < r[l]
    decreases |s| - from
  {
    if from == |s| then []
    else if s[from].enabled && s[from].resourceId == id then [from] + BoundScanouts(s, id, from + 1)
    else BoundScanouts(s, id, from + 1)
  }

  /** wasm_gpu_resource_flush: on a live resource notify every enabled
      scanout bound to it, in index order, and count one rendered frame per
      notification. The rectangle is not used: there is no damage tracking.
      Fails on a non-live ID. No table changes either way. */
  function Flush(g: Gpu, id: nat, x: nat, y: nat, width: nat, height: nat): (r: (Gpu, int, seq<nat>))
    requires g.WellFormed()
    ensures r.1 == -1 || r.1 == 0
    ensures r.1 == -1 <==> !g.Live(id)
    ensures r.1 == -1 ==> r.0 == g && r.2 == []
    ensures r.1 == 0 ==>
      && (forall k :: 0 <= k < |r.2| ==> r.2[k] < MaxScanouts)
      && (forall i :: 0 <= i < MaxScanouts ==>
            (i in r.2 <==> g.scanouts[i].enabled && g.scanouts[i].resourceId == id))
      && (forall k, l :: 0 <= k < l < |r.2| ==> r.2[k] < r.2[l])
      && r.0 == g.(stats := g.stats.(framesRendered := g.stats.framesRendered + |r.2|))
    ensures g.TablesConsistent() ==> r.0.TablesConsistent()
    ensures g.Consistent() ==> r.0.Consistent()
  {
    if !g.Live(id) then (g, -1, [])
    else
      var notified := BoundScanouts(g.scanouts, id, 0);
      (g.(stats := g.stats.(framesRendered := g.stats.framesRendered + |notified|)), 0, notified)
  }

  /** wasm_gpu_set_scanout: copy the caller's scanout record into the slot
      named by its ID. The bound resource need not exist. */
  function SetScanout(g: Gpu, s: Scanout): (r: (Gpu, int))
    requires g.WellFormed()
    ensures r.1 == -1 || r.1 == 0
    ensures r.1 == -1 <==> s.scanoutId >= MaxScanouts
    ensures r.1 == -1 ==> r.0 == g
    ensures r.0.WellFormed()
    ensures r.1 == 0 ==>
      && r.0.scanouts[s.scanoutId] == s
      && (forall j :: 0 <= j < MaxScanouts && j != s.scanoutId ==> r.0.scanouts[j] == g.scanouts[j])
      && r.0 == g.(scanouts := r.0.scanouts)
    ensures g.TablesConsistent() ==> r.0.TablesConsistent()
    ensures g.Consistent() ==> r.0.Consistent()
  {
    if s.scanoutId >= MaxScanouts then (g, -1)
    else (g.(scanouts := g.scanouts[s.scanoutId := s]), 0)
  }

  /** An enabled scanout bound to a live resource is among the scanouts the
      next flush of that resource notifies. */
  lemma FlushReachesBoundScanout(g: Gpu, s: Scanout, x: nat, y: nat, w: nat, h: nat)
    requires g.WellFormed() && s.scanoutId < MaxScanouts && s.enabled
    requires g.Live(s.resourceId)
    ensures var g' := SetScanout(g, s).0;
            var f := Flush(g', s.resourceId, x, y, w, h);
            f.1 == 0 && s.scanoutId in f.2
  {
  }

  /** The image js_update_cursor receives: the host pointer and the size of
      the cursor resource, or nothing. */
  datatype CursorImage = CursorImage(data: Ptr, width: nat, height: nat)

  /** wasm_gpu_cursor_update: for an in-range ID, pass the cursor image on
      when the resource is live and has a host pointer, and no image
      otherwise; an out-of-range ID fails. The state never changes. */
  function CursorUpdate(g: Gpu, id: nat, hotX: nat, hotY: nat): (r: (int, Option<Option<CursorImage>>))
    requires g.WellFormed()
    ensures r.0 == -1 <==> id >= MaxResources
    ensures r.0 == -1 ==> r.1 == None
    ensures r.0 != -1 ==> r.0 == 0 && r.1.Some?
    ensures r.0 == 0 ==>
      (r.1.value.Some? <==> g.Live(id) && g.resources[id].value.hostPtr.Some?)
    ensures r.0 == 0 && r.1.value.Some? ==>
      var res := g.resources[id].value;
      r.1.value.value == CursorImage(res.hostPtr.value, res.width, res.height)
  {
    if id >= MaxResources then (-1, None)
    else if g.resources[id].Some? && g.resources[id].value.hostPtr.Some? then
      var res := g.resources[id].value;
      (0, Some(Some(CursorImage(res.hostPtr.value, res.width, res.height))))
    else (0, Some(None))
  }

  /** The integer part of WasmGpuBlobResource. */
  datatype Blob = Blob(resourceId: nat, blobMem: nat, blobFlags: nat, blobId: nat, size: nat)

  /** The resource record wasm_gpu_blob_create hands to resource_create:
      only the ID, the size and the blob flag are set. */
  function BlobRecord(blob: Blob): Resource
  {
    Resource(blob.resourceId, 0, 0, 0, 0, 0, blob.size, None, true, false)
  }

  /** wasm_gpu_blob_create: create the underlying resource, then give it a
      buffer of `size` bytes from the allocator (`alloc` is the
      address it returns; a zero-byte request yields NULL). Returns the
      mapped pointer. Fails exactly when resource creation fails. The
      buffer is not added to `texture_memory`. */
  function BlobCreate(g: Gpu, blob: Blob, alloc: Ptr): (r: (Gpu, int, Option<Ptr>))
    requires g.WellFormed() && blob.size < U64
    ensures r.1 == -1 || r.1 == 0
    ensures r.1 == -1 <==> blob.resourceId >= MaxResources || g.resources[blob.resourceId].Some?
    ensures r.1 == -1 ==> r.0 == g && r.2 == None
    ensures r.1 == 0 ==>
      var g', id := r.0, blob.resourceId;
      var mapped := if blob.size == 0 then None else Some(alloc);
      && r.2 == mapped
      && g'.WellFormed()
      && g'.resources[id] == Some(BlobRecord(blob).(hostPtr := mapped))
      && (forall j :: 0 <= j < MaxResources && j != id ==> g'.resources[j] == g.resources[j])
      && g'.stats == g.stats.(resourcesAllocated := g.stats.resourcesAllocated + 1)
      && g'.resourceCount == Inc32(g.resourceCount)
      && g' == g.(resources := g'.resources, resourceCount := g'.resourceCount, stats := g'.stats)
    ensures g.TablesConsistent() ==> r.0.TablesConsistent()
    ensures g.Consistent() ==> r.0.Consistent()
    ensures g.TablesConsistent() && r.1 == 0 ==> r.0.resourceCount == g.resourceCount + 1
  {
    var c := Create(g, BlobRecord(blob));
    if c.1 < 0 then (c.0, c.1, None)
    else
      var id := blob.resourceId;
      var mapped := if blob.size == 0 then None else Some(alloc);
      var res := c.0.resources[id].value.(hostPtr := mapped, size := blob.size);
      ReplaceLive(c.0, id, res);
      (c.0.(resources := c.0.resources[id := Some(res)]), 0, mapped)
  }

  /** wasm_gpu_blob_map: the host pointer of a live blob resource; NULL for
      a non-live ID or a resource that is not a blob. */
  function BlobMap(g: Gpu, id: nat): (p: Option<Ptr>)
    requires g.WellFormed()
    ensures p.Some? ==> g.Live(id) && g.resources[id].value.isBlob
    ensures g.Live(id) && g.resources[id].value.isBlob ==> p == g.resources[id].value.hostPtr
  {
    if !g.Live(id) || !g.resources[id].value.isBlob then None
    else g.resources[id].value.hostPtr
  }

  /** Mapping a freshly created blob returns the pointer its creation
      reported. */
  lemma BlobMapAfterCreate(g: Gpu, blob: Blob, alloc: Ptr)
    requires g.WellFormed() && blob.size < U64
    requires BlobCreate(g, blob, alloc).1 == 0
    ensures var c := BlobCreate(g, blob, alloc);
            BlobMap(c.0, blob.resourceId) == c.2
  {
  }

  /** `texture_memory` counts attached backings only, yet a blob's size is
      recorded without being added, so detaching a blob's backing wraps the
      64-bit counter around. */
  lemma BlobDetachWrapsTextureMemory(g: Gpu, blob: Blob, alloc: Ptr)
    requires g.Consistent() && g.stats.textureMemory == 0
    requires blob.resourceId < MaxResources && !g.Live(blob.resourceId)
    requires 0 < blob.size < U64
    ensures var c := BlobCreate(g, blob, alloc);
            c.1 == 0 && DetachBacking(c.0, blob.resourceId).stats.textureMemory == U64 - blob.size
  {
  }
}

=== FILE: gpu_state.dfy ===
/** The bookkeeping state of the WebAssembly virtio-gpu hooks
    (ui/wasm-virtio-gpu.c, lines 36-72, with the record layouts of
    include/ui/wasm-virtio-gpu.h).

    Every table is a fixed-length sequence indexed by the guest-supplied ID.
    A heap-allocated record behind a nullable pointer is an `Option`, and a
    host buffer pointer is an abstract non-null address `Ptr`. Statistics
    that only ever grow by small steps are unbounded; the counters that can
    really wrap use the explicit fixed-width helpers of `Base`. */
module GpuState {
  import opened Base

  /** WASM_GPU_MAX_RESOURCES, _CONTEXTS, _SCANOUTS and _FENCES. */
  const MaxResources: nat := 4096
  const MaxContexts: nat := 256
  const MaxScanouts: nat := 16
  const MaxFences: nat := 1024

  /** A non-null host address; `None` stands for NULL. */
  type Ptr = nat

  /** WasmGpuBackendType, in header order. */
  datatype Backend = BackendNone | Canvas2D | WebGL | WebGL2 | WebGPU | WebGPUCompat
  {
    /** The enumerator's integer value, which the source compares. */
    function Ord(): nat
    {
      match this
      case BackendNone => 0
      case Canvas2D => 1
      case WebGL => 2
      case WebGL2 => 3
      case WebGPU => 4
      case WebGPUCompat => 5
    }
  }

  /** The integer and flag part of WasmGpuCapabilities. */
  datatype Caps = Caps(
    backend: Backend,
    features: nat,
    maxTextureSize: nat,
    maxTextureLayers: nat,
    maxBufferSize: nat,
    maxUniformBufferSize: nat,
    maxComputeWorkgroupSize: seq<nat>,
    maxComputeWorkgroups: seq<nat>,
    supportsVirgl: bool,
    supportsBlob: bool)

  /** WasmGpuResource. `js_texture_id` is never written by the core and is
      left out. */
  datatype Resource = Resource(
    resourceId: nat,
    width: nat,
    height: nat,
    format: nat,
    bind: nat,
    target: nat,
    size: nat,
    hostPtr: Option<Ptr>,
    isBlob: bool,
    isDirty: bool)

  /** WasmGpuScanout. */
  datatype Scanout = Scanout(
    scanoutId: nat,
    resourceId: nat,
    x: nat,
    y: nat,
    width: nat,
    height: nat,
    enabled: bool,
    needsFlush: bool)

  /** WasmGpu3DContext. */
  datatype Context3D = Context3D(ctxId: nat, capsetId: nat, active: bool)

  /** One entry of the fence array; `fenceId == 0` marks a free slot. */
  datatype FenceSlot = FenceSlot(fenceId: nat, ctxId: nat, signaled: bool)

  /** The integer part of WasmGpuStats. */
  datatype Stats = Stats(
    framesRendered: nat,
    bytesUploaded: nat,
    bytesDownloaded: nat,
    commandsSubmitted: nat,
    resourcesAllocated: nat,
    textureMemory: nat,
    pendingFences: nat)

  /** WasmGpuState. */
  datatype Gpu = Gpu(
    caps: Caps,
    stats: Stats,
    resources: seq<Option<Resource>>,
    resourceCount: nat,
    contexts: seq<Option<Context3D>>,
    contextCount: nat,
    scanouts: seq<Scanout>,
    fences: seq<FenceSlot>,
    fenceCount: nat)
  {
    /** Table sizes and the ranges of the fixed-width fields. */
    predicate WellFormed()
    {
      && |resources| == MaxResources
      && |contexts| == MaxContexts
      && |scanouts| == MaxScanouts
      && |fences| == MaxFences
      && resourceCount < U32 && contextCount < U32 && fenceCount < U32
      && stats.pendingFences < U32 && stats.textureMemory < U64
      && (forall i :: 0 <= i < |resources| && resources[i].Some? ==>
            resources[i].value.size < U64)
    }

    /** The resource and context counters agree with their tables, and every
        live record sits at the slot named by its own ID. */
    predicate TablesConsistent()
    {
      && WellFormed()
      && resourceCount == Count(resources, Occupied)
      && contextCount == Count(contexts, Occupied)
      && (forall i :: 0 <= i < |resources| && resources[i].Some? ==>
            resources[i].value.resourceId == i)
      && (forall i :: 0 <= i < |contexts| && contexts[i].Some? ==>
            contexts[i].value.ctxId == i)
    }

    /** `fence_count` counts the fence slots in use, and `pending_fences`
        agrees with it. */
    predicate FencesConsistent()
    {
      && WellFormed()
      && fenceCount == Count(fences, InUse)
      && stats.pendingFences == fenceCount
    }

    /** The whole occupancy invariant. The source can leave it: a statistics
        reset or a fence with ID 0 breaks the fence part. */
    predicate Consistent()
    {
      TablesConsistent() && FencesConsistent()
    }

    /** A resource ID in range whose slot holds a record. */
    predicate Live(id: nat)
      requires WellFormed()
    {
      id < MaxResources && resources[id].Some?
    }
  }

  /** A table slot that holds a record. */
  predicate Occupied<T>(slot: Option<T>)
  {
    slot.Some?
  }

  /** A fence slot whose ID is not the free sentinel 0. */
  predicate InUse(slot: FenceSlot)
  {
    slot.fenceId != 0
  }

  /** The zeroed statistics of `g_new0`. */
  const NoStats: Stats := Stats(0, 0, 0, 0, 0, 0, 0)

  /** The zeroed scanout and fence entries of `g_new0`. */
  const BlankScanout: Scanout := Scanout(0, 0, 0, 0, 0, 0, false, false)
  const FreeFence: FenceSlot := FenceSlot(0, 0, false)

  /** The state `g_new0` allocates in wasm_gpu_init, with capabilities
      `caps`: every table empty, every counter zero. */
  function Blank(caps: Caps): (g: Gpu)
    ensures g.Consistent()
    ensures forall id :: 0 <= id < MaxResources ==> !g.Live(id)
  {
    var g := Gpu(caps, NoStats,
                 seq(MaxResources, _ => None), 0,
                 seq(MaxContexts, _ => None), 0,
                 seq(MaxScanouts, _ => BlankScanout),
                 seq(MaxFences, _ => FreeFence), 0);
    CountNone(g.resources, Occupied);
    CountNone(g.contexts, Occupied);
    CountNone(g.fences, InUse);
    g
  }
}

=== FILE: wasm_audio.dfy ===
/** The global audio state of the WebAssembly audio backend and the thin
    frame/sample accounting built on the two rings (audio/wasmaudio.c,
    lines 59-84 and 449-751). The global pointer `wasm_audio_state` is an
    `Option`: `None` before wasm_audio_init succeeds and after shutdown.

    Counts handed to ring_write are `size_t`, which is 32 bits wide on the
    WebAssembly target, so `samples * channels` is reduced modulo 2^32. */
module WasmAudio {
  import opened Base
  import opened AudioRing

  /** WasmAudioState, in header order. */
  datatype PlaybackState = Closed | Suspended | Running | Interrupted

  /** WasmAudioBackendType, in header order. */
  datatype AudioBackend = NoBackend | ScriptProcessor | AudioWorklet

  /** The integer part of WasmAudioConfig. */
  datatype Config = Config(sampleRate: int, channels: int, bufferSize: int, backend: AudioBackend)

  /** WASM_AUDIO_DEFAULT_RATE, _CHANNELS and _SAMPLES with the script
      processor backend: the configuration used when none is supplied. */
  const DefaultConfig: Config := Config(48000, 2, 1024, ScriptProcessor)

  /** The integer part of WasmAudioGlobalState, with the counters of
      WasmAudioInfo it maintains. Samples have the abstract type `T`. */
  datatype Audio<T> = Audio(
    config: Config,
    output: Ring<T>,
    input: Ring<T>,
    samplesPlayed: nat,
    samplesCaptured: nat,
    underruns: nat,
    state: PlaybackState,
    interrupted: bool)
  {
    predicate Valid()
    {
      output.Valid() && input.Valid()
    }

    /** The channel count divides sample counts into frames; the source
        divides by it unchecked, so it has to be a positive `int32_t`. */
    predicate Framed()
    {
      0 < config.channels < 0x8000_0000
    }
  }

  /** The global state: `None` is the null `wasm_audio_state`. */
  type Global<T> = Option<Audio<T>>

  /** wasm_audio_init. An initialised state is returned unchanged with 0.
      Otherwise a fresh state is built from `config` or the defaults, with
      two zero-filled rings; `jsReady` is the result of the Web Audio set-up
      (js_audio_init), whose failure discards the state and returns -1. */
  function Init<T>(g: Global<T>, config: Option<Config>, jsReady: bool, zero: T): (r: (Global<T>, int))
    ensures g.Some? ==> r == (g, 0)
    ensures g.None? && !jsReady ==> r == (None, -1)
    ensures g.None? && jsReady ==>
      && r.1 == 0 && r.0.Some?
      && var a := r.0.value;
      && a.Valid()
      && Contents(a.output) == [] && Contents(a.input) == []
      && AvailableWrite(a.output) == RingSize - 1
      && a.config == (if config.Some? then config.value else DefaultConfig)
      && a.state == Suspended && !a.interrupted
      && a.samplesPlayed == 0 && a.samplesCaptured == 0 && a.underruns == 0
  {
    if g.Some? then (g, 0)
    else if !jsReady then (None, -1)
    else
      var cfg := if config.Some? then config.value else DefaultConfig;
      (Some(Audio(cfg, Fresh(zero), Fresh(zero), 0, 0, 0, Suspended, false)), 0)
  }

  /** The float count wasm_audio_write hands to ring_write: `samples *
      channels` as a 32-bit `size_t`. */
  function FloatCount(samples: nat, channels: int): (n: nat)
    requires samples < U32 && channels > 0
    ensures n < U32
    ensures samples * channels < U32 ==> n == samples * channels
  {
    (samples * channels) % U32
  }

  /** Whole frames in `floats` interleaved samples: the unsigned division
      by the channel count that the source applies to sample counts. */
  function WholeFrames(floats: nat, channels: int): (frames: nat)
    requires channels > 0
    ensures frames * channels <= floats < (frames + 1) * channels
  {
    floats / channels
  }

  /** wasm_audio_write: push interleaved frames into the output ring. With no
      state or a null `data` nothing happens and 0 is returned. Otherwise the
      ring accepts as many floats as it has room for (possibly a partial
      frame), and the result and `samples_played` count whole frames. */
  function Write<T>(g: Global<T>, data: Option<seq<T>>, samples: nat): (r: (Global<T>, nat))
    requires samples < U32
    requires g.Some? ==> g.value.Valid() && g.value.Framed()
    requires g.Some? && data.Some? ==> FloatCount(samples, g.value.config.channels) <= |data.value|
    ensures g.None? || data.None? ==> r == (g, 0)
    ensures g.Some? && data.Some? ==> r.0.Some?
    ensures g.Some? && data.Some? ==>
      var a, a', frames := g.value, r.0.value, r.1;
      var ch := a.config.channels;
      var want := FloatCount(samples, ch);
      var n := Min(want, AvailableWrite(a.output));
      && a'.Valid()
      && frames <= samples
      && frames * ch <= n < (frames + 1) * ch
      && Contents(a'.output) == Contents(a.output) + data.value[..n]
      && a'.samplesPlayed == a.samplesPlayed + frames
      && a' == a.(output := a'.output, samplesPlayed := a'.samplesPlayed)
  {
    if g.None? || data.None? then (g, 0)
    else
      var a := g.value;
      var ch := a.config.channels;
      var want := FloatCount(samples, ch);
      var w := AudioRing.Write(a.output, data.value, want);
      WriteAppends(a.output, data.value, want);
      var frames := WholeFrames(w.count, ch);
      FramesOf(w.count, ch, samples);
      (Some(a.(output := w.ring, samplesPlayed := a.samplesPlayed + frames)), frames)
  }

  /** Whole frames in `n` floats: never more than requested when `n` did not
      exceed the requested float count. */
  lemma FramesOf(n: nat, ch: int, samples: nat)
    requires 0 < ch && samples < U32 && n <= FloatCount(samples, ch)
    ensures WholeFrames(n, ch) <= samples
  {
    assert n <= samples * ch by {
      if samples * ch >= U32 {
        assert n < U32;
      }
    }
    MulCancelLe(WholeFrames(n, ch), samples, ch);
  }

  /** wasm_audio_get_free: whole frames of free space in the output ring. */
  function GetFree<T>(g: Global<T>): (frames: nat)
    requires g.Some? ==> g.value.Valid() && g.value.Framed()
    ensures g.None? ==> frames == 0
    ensures g.Some? ==>
      frames * g.value.config.channels <= AvailableWrite(g.value.output)
        < (frames + 1) * g.value.config.channels
  {
    if g.None? then 0 else WholeFrames(AvailableWrite(g.value.output), g.value.config.channels)
  }

  /** A write of at most wasm_audio_get_free frames is accepted in full:
      the free-space query and the write path agree. */
  lemma WriteOfFreeFramesIsAccepted<T>(g: Global<T>, data: seq<T>, samples: nat)
    requires g.Some? && g.value.Valid() && g.value.Framed()
    requires samples <= GetFree(g)
    requires samples * g.value.config.channels <= |data|
    ensures samples < U32
    ensures Write(g, Some(data), samples).1 == samples
  {
    var a := g.value;
    var ch := a.config.channels;
    var free := AvailableWrite(a.output);
    MulMonoLe(samples, GetFree(g), ch);
    MulMonoLe(1, ch, samples);
    assert samples * ch < U32;
    var want := FloatCount(samples, ch);
    assert want == samples * ch;
    var w := AudioRing.Write(a.output, data, want);
    assert w.count == samples * ch;
    var f := WholeFrames(w.count, ch);
    MulCancelLe(f, samples, ch);
    MulCancelLt(samples, f + 1, ch);
  }

  /** wasm_audio_read: pull up to `samples` floats (not frames) from the
      input ring. With no state or no destination buffer nothing is read. */
  function Read<T>(g: Global<T>, hasBuffer: bool, samples: nat): (r: (Global<T>, seq<T>))
    requires g.Some? ==> g.value.Valid()
    ensures g.None? || !hasBuffer ==> r == (g, [])
    ensures g.Some? && hasBuffer ==> r.0.Some?
    ensures g.Some? && hasBuffer ==>
      var a, a', out := g.value, r.0.value, r.1;
      && a'.Valid()
      && |out| == Min(samples, AvailableRead(a.input))
      && out == Contents(a.input)[..|out|]
      && Contents(a'.input) == Contents(a.input)[|out|..]
      && a' == a.(input := a'.input)
  {
    if g.None? || !hasBuffer then (g, [])
    else
      var a := g.value;
      var d := AudioRing.Read(a.input, samples);
      ReadConsumes(a.input, samples);
      (Some(a.(input := d.ring)), d.samples)
  }

  /** wasm_audio_get_available: unread floats in the input ring. */
  function GetAvailable<T>(g: Global<T>): (n: nat)
    requires g.Some? ==> g.value.Valid()
    ensures g.None? ==> n == 0
    ensures g.Some? ==> n == |Contents(g.value.input)| && n < RingSize
  {
    if g.None? then 0 else AvailableRead(g.value.input)
  }

  /** Reading wasm_audio_get_available floats drains the input ring. */
  lemma ReadAvailableDrains<T>(g: Global<T>)
    requires g.Some? && g.value.Valid()
    ensures var r := Read(g, true, GetAvailable(g));
            r.1 == Contents(g.value.input) && Contents(r.0.value.input) == []
  {
  }

  /** wasm_audio_push_input: the browser's capture callback moves `samples`
      floats from the temporary buffer into the input ring.
      `samples_captured` grows by the requested count even when the ring
      drops part of it. */
  function PushInput<T>(g: Global<T>, temp: Option<seq<T>>, samples: nat): (r: Global<T>)
    requires g.Some? ==> g.value.Valid()
    requires temp.Some? ==> samples <= |temp.value|
    ensures g.None? || temp.None? ==> r == g
    ensures g.Some? && temp.Some? ==> r.Some?
    ensures g.Some? && temp.Some? ==>
      var a, a' := g.value, r.value;
      && a'.Valid()
      && Contents(a'.input)
         == Contents(a.input) + temp.value[..Min(samples, AvailableWrite(a.input))]
      && a'.samplesCaptured == a.samplesCaptured + samples
      && a' == a.(input := a'.input, samplesCaptured := a'.samplesCaptured)
  {
    if g.None? || temp.None? then g
    else
      var a := g.value;
      var w := AudioRing.Write(a.input, temp.value, samples);
      WriteAppends(a.input, temp.value, samples);
      Some(a.(input := w.ring, samplesCaptured := a.samplesCaptured + samples))
  }

  /** wasm_audio_fill_buffer: the playback callback announces it needs
      `samples` frames. An underrun is counted when the output ring holds
      fewer floats than that; nothing is consumed. The product is an `int`
      (it must not overflow) converted to a 32-bit `size_t`, so a negative
      request reads as a huge one. No division is involved, so any channel
      count is allowed; with none the request is empty. */
  function FillBuffer<T>(g: Global<T>, samples: int): (r: Global<T>)
    requires g.Some? ==> g.value.Valid()
    requires g.Some? ==> -0x8000_0000 <= samples * g.value.config.channels < 0x8000_0000
    ensures g.None? ==> r == g
    ensures g.Some? ==> r.Some?
    ensures g.Some? ==>
      var a, a' := g.value, r.value;
      var needed := samples * a.config.channels;
      && (needed >= 0 ==>
            a'.underruns == a.underruns + (if AvailableRead(a.output) < needed then 1 else 0))
      && (needed < 0 ==> a'.underruns == a.underruns + 1)
      && a' == a.(underruns := a'.underruns)
  {
    if g.None? then g
    else
      var a := g.value;
      var needed := (samples * a.config.channels) % U32;
      if AvailableRead(a.output) < needed then Some(a.(underruns := a.underruns + 1)) else g
  }

  /** wasm_audio_handle_interruption: record whether an interruption began
      and move to INTERRUPTED, or back to SUSPENDED when it ended. */
  function HandleInterruption<T>(g: Global<T>, began: bool): (r: Global<T>)
    ensures g.None? ==> r == g
    ensures g.Some? ==>
      && r.Some?
      && r.value.interrupted == began
      && (r.value.state == Interrupted <==> began)
      && (!began ==> r.value.state == Suspended)
      && r.value == g.value.(interrupted := began, state := r.value.state)
  {
    if g.None? then g
    else Some(g.value.(interrupted := began, state := if began then Interrupted else Suspended))
  }

  /** wasm_audio_is_interrupted. */
  function IsInterrupted<T>(g: Global<T>): (b: bool)
    ensures g.None? ==> !b
    ensures g.Some? ==> b == g.value.interrupted
  {
    g.Some? && g.value.interrupted
  }

  /** The flag set by an interruption is the one the query reports. */
  lemma InterruptionIsReported<T>(g: Global<T>, began: bool)
    ensures IsInterrupted(HandleInterruption(g, began)) == (g.Some? && began)
  {
  }
}
